=== FILE: README.md ===
# HONESTLY matching core in Dafny

A model of the matching core of HONESTLY, a dating application that pairs users
by an AI analysis of their bios. The model covers:

- **findMatches** (`lib/matching.ts`):
  - the requester must have a profile with a truthy embedding;
  - the candidate pool leaves out the requester and everyone who already shares a match row with them;
  - the rule-based filter checks mutual age bounds, mutual gender preference with the `"any"` wildcard, and mutual maximum distance when all four coordinates are truthy;
  - the similarity score is `Math.round((s + 1) / 2 * 100)`, and `cosineSimilarity` throws on vectors of different lengths;
  - candidates are ordered by descending score and cut with `slice(0, limit)`;
  - one PENDING match row is created per shortlisted candidate, with an AI explanation.
- **likeMatch / passMatch**: the like flags, the LIKED/MUTUAL/PASSED statuses, and what likeMatch returns.
- **The deterministic parts of `lib/ai.ts`**:
  - the reply-type check;
  - the `{...}` span extraction;
  - the comma split;
  - the pad/truncate to 1536 entries.
- **POST /api/profile**:
  - the zod schema;
  - the 401/400/500 replies: a 401, a 400, and a 500 for a body that is not JSON or from the AI steps write nothing;
  - the text the embedding is generated from;
  - the stored embedding format `[n1,n2,...]`;
  - the upsert;
  - the photo replacement.
- **GET /api/matches**: the caller's rows that are not PASSED, highest score first, with photos in ascending order.
- **The profile form**: the gender-preference toggle, the step-1 gate, the blank-URL filter and the initial preference values.

Modules, one per file:

| module | file | what it holds |
|---|---|---|
| `Domain` | `domain.dfy` | `Option`, `Result`, profiles, preferences, match rows, the store, and the collaborators (`Oracles`) |
| `Text` | `text.dfy` | ECMAScript `trim`, `split` and `join` with one separator, `filter`, and bracket removal |
| `Sequences` | `sequences.dfy` | the absence of duplicates in a sequence, and the count of its distinct elements |
| `Sorting` | `sorting.dfy` | descending sort and `Array.prototype.slice(0, end)` |
| `Scoring` | `scoring.dfy` | `parseEmbedding`, the length guard of `cosineSimilarity`, and the score mapping |
| `Eligibility` | `eligibility.dfy` | the three rule-based checks |
| `Matching` | `matching.dfy` | findMatches and the match-table invariant |
| `Lifecycle` | `lifecycle.dfy` | likeMatch and passMatch |
| `Ai` | `ai.dfy` | the AI reply handling |
| `ProfileRoute` | `profile_route.dfy` | POST /api/profile |
| `MatchesRoute` | `matches_route.dfy` | GET /api/matches |
| `ProfileForm` | `profile_form.dfy` | the form logic |

How the model represents the source:

- **Numbers.** JavaScript numbers are `real`. Haversine distance, cosine arithmetic, `parseFloat`, number-to-text, `JSON.parse` and the three AI replies are function-valued fields of `Domain.Oracles`, so every contract holds for any behaviour of them.
- **Tables.** The match table is a sequence; a match id is a position in it. Profiles and photos are maps keyed by user id.
- **Authentication.** The session is an `Option<UserId>` input.
- **Request body.** The body of POST /api/profile is an `Option<Json>` input, `None` when it is not JSON.

The model follows the code where the code and its evident design differ:

- likeMatch does not check that the actor is a party to the row. Anyone who is not the initiator counts as the candidate (`Lifecycle.OutsiderLikeCountsForCandidate`).
- likeMatch has no guard on PASSED or MUTUAL rows. The initiator liking a PASSED row moves it to LIKED or MUTUAL (`Lifecycle.InitiatorLikeLeavesPassed`).
- likeMatch returns the row as it was before the MUTUAL update. The `snapshot` of `Lifecycle.LikeOutcome` is LIKED or the earlier status, never MUTUAL unless it already was (`Lifecycle.LikeLikePass`).
- A coordinate equal to 0 reads as absent, so the distance bound is skipped (`Eligibility.ZeroCoordinateSkipsDistance`).
- The schema does not relate `ageMin` to `ageMax`. An empty age range is accepted (`ProfileRoute.InvertedAgeRangeAccepted`).
- GET /api/matches lists only rows the caller initiated. The candidate of a row never sees it there (`MatchesRoute.CandidateRowsNotListed`).
- The step-1 gate checks the bio's lower length bound but not its upper one (`ProfileForm.StepOneAdmitsOverlongBio`).
- A rejected explanation rejects all of findMatches. The model writes no rows in that case (see Left out).

## Model

| member | source | states |
|---|---|---|
| Text.Trim | lib/ai.ts:142 | the result is a slice of the input with only whitespace cut from each end and none left at either end; it is empty exactly when the input is blank, and every non-whitespace character keeps its count |
| Text.TrimIdempotent | lib/ai.ts:142 | trimming a trimmed text changes nothing |
| Text.Split | lib/ai.ts:93 | split gives one piece more than there are separators, no piece holds the separator, and joining the pieces restores the input |
| Text.SplitJoin | app/api/profile/route.ts:60 | splitting a join of separator-free pieces gives the pieces back |
| Text.Join | app/api/profile/route.ts:60 | joining separator-free pieces puts exactly one separator between neighbours, so one fewer than there are pieces |
| Text.Keep | app/components/ProfileForm.tsx:42 | filter keeps exactly the accepted elements and never grows the list |
| Text.KeepAppend | lib/matching.ts:182 | filtering distributes over concatenation, so kept elements keep their relative order |
| Text.KeepUnique | lib/matching.ts:182 | filtering a list without duplicates gives a list without duplicates |
| Text.KeepDropsOne | app/components/ProfileForm.tsx:73 | a filter rejecting only one element between kept runs deletes exactly that element |
| Text.RemoveBrackets | lib/matching.ts:53 | no `[` or `]` survives the replace, nothing is added, and a bracket-free text comes back unchanged |
| Text.RemoveBracketsCounts | lib/matching.ts:53 | the replace keeps the count of every other character, commas included |
| Text.Unbracket | lib/matching.ts:53 | the replace recovers t from `"[" + t + "]"` when t has no brackets |
| Sorting.SortDesc | lib/matching.ts:183 | the result is in non-increasing key order and is a permutation of the input |
| Sorting.SliceEnd | lib/matching.ts:184 | the cut point of slice(0, end): end clamped to the length, and a negative end counts back from the length |
| Sorting.Take | lib/matching.ts:184 | slice(0, end) is a prefix whose length follows slice's clamping: min(end, length) for a non-negative end, and all but the last -end elements (none when -end exceeds the length) for a negative end |
| Sorting.SortedPrefixDominates | lib/matching.ts:183-184 | in a sorted list, everything slice keeps has a key at least that of everything it cuts |
| Sequences.PermutationKeepsUnique | lib/matching.ts:183 | sorting cannot introduce a duplicate |
| Scoring.Round | lib/matching.ts:174 | Math.round gives the integer within half a unit, halves rounding up |
| Scoring.ToScore | lib/matching.ts:174 | a similarity in [-1, 1] gives a score in [0, 100] |
| Scoring.ToScoreMonotone | lib/matching.ts:174 | a higher similarity never gives a lower score |
| Scoring.ToScoreLandmarks | lib/matching.ts:174 | similarities -1, 0 and 1 score 0, 50 and 100 |
| Scoring.ParseEmbedding | lib/matching.ts:50-57 | a stored embedding reads back as one number per comma, plus one |
| Scoring.CosineSimilarity | lib/matching.ts:32-35 | throws 'Vectors must have same length' exactly when the lengths differ |
| Eligibility.AgeCheck | lib/matching.ts:126-134 | each party's age lies in the other's [ageMin, ageMax] |
| Eligibility.GenderCheck | lib/matching.ts:136-148 | each preference list holds "any" or the other party's gender |
| Eligibility.DistanceCheck | lib/matching.ts:150-167 | with all four coordinates truthy, the distance is within both maxima; otherwise the check passes |
| Eligibility.Eligible | lib/matching.ts:125-167 | a candidate survives exactly when the age, gender and distance checks all pass |
| Eligibility.EligibleSymmetric | lib/matching.ts:125-167 | with a symmetric distance, swapping requester and candidate gives the same verdict |
| Eligibility.ZeroCoordinateSkipsDistance | lib/matching.ts:151-156 | a coordinate of 0 skips the distance bound whatever the distance |
| Eligibility.DealbreakersIgnored | lib/matching.ts:125-167 | dealbreakers never change the verdict |
| Matching.ExcludedUsers | lib/matching.ts:82-98 | a user is excluded exactly when it is the requester or shares a row with the requester in either direction |
| Matching.PriorMatchExcludes | lib/matching.ts:82-98 | both parties of any row involving the requester are excluded, whatever its status |
| Matching.CandidatePool | lib/matching.ts:100-110 | the pool holds each complete, active, embedded, non-excluded profile exactly once, and nothing else |
| Matching.ScoreOne | lib/matching.ts:122-181 | an ineligible profile gives no candidate; an eligible one gives its own score or, on a length mismatch, the throw |
| Matching.ScoreCandidates | lib/matching.ts:121-182 | the map/filter throws exactly when some eligible pool member's vector length differs; otherwise every candidate is an eligible pool member with its stored profile and its score |
| Matching.ScoredUsers | lib/matching.ts:121-182 | the scored users are the pool filtered by eligibility, in pool order |
| Matching.ScoredComplete | lib/matching.ts:182 | no eligible pool member is dropped by the filter |
| Matching.ScoredUnique | lib/matching.ts:182 | a pool without repeats gives candidates without repeats |
| Matching.NewRow | lib/matching.ts:189-202 | the row is PENDING, from the requester to the candidate, with the candidate's score and the trimmed explanation, or the throw of a non-text reply; both like flags are false, the column default this model assumes |
| Matching.CreateMatches | lib/matching.ts:186-220 | Promise.all rejects exactly when some shortlisted candidate's explanation reply is not text; otherwise one row per candidate in shortlist order |
| Matching.FindMatches | lib/matching.ts:59-223 | 'User profile not complete' exactly without a profile or a truthy embedding; 'Vectors must have same length' exactly when a complete requester has an eligible pool member whose vector length differs; 'Unexpected response type' only when the reply is not text for some eligible pool member that fewer contenders outscore than slice keeps, so a limit of 0 gives an empty list; with none of these causes the call succeeds, and no other error occurs; a result is sorted by score and holds exactly as many rows as slice(0, limit) keeps of the contenders (min(limit, count) for a non-negative limit, all but the last -limit for a negative one), one row per distinct pool member, each eligible and PENDING; an eligible pool member left out scores no higher than every row, and is left out only when the list was cut at `limit` |
| Matching.PoolMismatch | lib/matching.ts:32-35 | scoring the pool throws exactly when some eligible, non-excluded, complete profile has a vector of another length than the requester's |
| Matching.RefusalIsContender | lib/matching.ts:186-193 | a rejected Promise.all comes from the explanation of a user who is an eligible, non-excluded, complete profile (a weaker corollary of RefusalWithinCut, kept for the coarser ExplanationRefused clause) |
| Matching.RefusalWithinCut | lib/matching.ts:183-193 | a rejected Promise.all comes from the explanation of a contender that fewer contenders outscore than slice(0, limit) keeps |
| Matching.RankedWithinCut | lib/matching.ts:183-184 | every candidate slice(0, limit) keeps of the ranked list is a contender outscored by fewer contenders than the number kept |
| Matching.RankedCountsContenders | lib/matching.ts:100-183 | the ranked list names each contender exactly once, so its length is the number of contenders |
| Matching.RankingFacts | lib/matching.ts:182-220 | the sorted, sliced and created rows keep the soundness, order, distinctness and completeness of the scored candidates |
| Matching.LeftOutScoresLower | lib/matching.ts:183-184 | a ranked candidate without a row scores no higher than any created row and lies past the cut |
| Matching.CreatedSorted | lib/matching.ts:183-201 | rows created in ranked order are in non-increasing score order |
| Matching.AppendKeepsTableWellFormed | lib/matching.ts:95-118 | appending rows to non-excluded, distinct partners keeps every pair of users linked by at most one row, and no row links a user to themself |
| Matching.FindAndStore | lib/matching.ts:59-223 | the same failure causes, limit-0 result, success condition and result length as findMatches; a failure leaves the table unchanged; success appends the created rows; the table invariant survives |
| Lifecycle.Like | lib/matching.ts:225-261 | 'Match not found' exactly for a missing id; only the liked row changes; the initiator sets userLiked and LIKED, anyone else sets matchedUserLiked; mutual is reported exactly when both flags are set, and then the row is MUTUAL; the returned row is the one before the MUTUAL update |
| Lifecycle.LikeUpdate | lib/matching.ts:239-243 | a like never clears a flag: the initiator sets userLiked and the status LIKED, anyone else sets matchedUserLiked only; no other column changes |
| Lifecycle.Pass | lib/matching.ts:263-276 | 'Match not found' exactly for a missing id; otherwise only that row's status changes, to PASSED |
| Lifecycle.PassIdempotent | lib/matching.ts:263-276 | passing twice, by anyone, is passing once |
| Lifecycle.PassIgnoresActor | lib/matching.ts:263-276 | who passes makes no difference |
| Lifecycle.LikeKeepsConsistent | lib/matching.ts:238-258 | like keeps LIKED rows liked by the initiator and MUTUAL rows liked by both |
| Lifecycle.PassKeepsConsistent | lib/matching.ts:272-275 | pass keeps that invariant too |
| Lifecycle.LikeLikePass | lib/matching.ts:225-276 | a fresh row goes PENDING, LIKED, MUTUAL, then PASSED; the second like reports mutual but returns a LIKED row |
| Lifecycle.CandidateFirstThenInitiator | lib/matching.ts:238-258 | a like by the candidate first leaves the row PENDING, and the initiator's like then makes it MUTUAL |
| Lifecycle.InitiatorLikeLeavesPassed | lib/matching.ts:239-243 | the initiator liking a PASSED row takes it out of PASSED |
| Lifecycle.OutsiderLikeCountsForCandidate | lib/matching.ts:239-243 | a like by a user outside the row sets the candidate's flag |
| Lifecycle.MutualReportedOnEveryLike | lib/matching.ts:252-257 | once both flags are set, every later like reports mutual and leaves the row MUTUAL |
| Ai.Fit | lib/ai.ts:95-100 | exactly 1536 entries: the parsed numbers in order, then zeros |
| Ai.FitKeepsFullVector | lib/ai.ts:95-100 | a vector of 1536 entries is left as it is |
| Ai.FitIdempotent | lib/ai.ts:95-100 | padding or truncating twice is doing it once |
| Ai.PadOrTruncate | lib/ai.ts:95-100 | the push-zeros loop and slice give exactly 1536 entries, the numbers first and zeros after |
| Ai.ParseNumbers | lib/ai.ts:93 | one number per comma of the reply, plus one |
| Ai.GenerateEmbedding | lib/ai.ts:87-100 | throws exactly on a non-text reply; otherwise 1536 entries |
| Ai.EmbeddingKeepsParsedPrefix | lib/ai.ts:93-100 | a reply with k commas keeps its first min(k + 1, 1536) numbers in order, and the rest of the vector is zero |
| Ai.ExtractJson | lib/ai.ts:58-62 | throws 'Could not parse AI response' exactly when no '{' has a '}' after it; otherwise returns the leftmost-longest `{...}` span |
| Ai.AnalyzeProfile | lib/ai.ts:53-64 | a non-text reply throws 'Unexpected response type' and a missing brace span 'Could not parse AI response'; otherwise the result is JSON.parse of exactly the span ExtractJson finds, and fails exactly when that parse fails |
| Ai.GenerateExplanation | lib/ai.ts:137-142 | throws exactly on a non-text reply; otherwise the reply text without its surrounding whitespace |
| ProfileRoute.ParseProfile | app/api/profile/route.ts:7-22 | the schema accepts exactly the conforming bodies and carries their values over unchanged, including the genderPreference and dealbreakers lists and the photo URLs, entry by entry |
| ProfileRoute.Strs | app/api/profile/route.ts:18-21 | z.array(z.string()) accepts exactly the arrays of strings and keeps their entries in order |
| ProfileRoute.InvertedAgeRangeAccepted | app/api/profile/route.ts:14-17 | a body with ageMin above ageMax is accepted |
| ProfileRoute.BioBounds | app/api/profile/route.ts:8 | a bio is accepted exactly when its length is in [50, 5000] |
| ProfileRoute.AgeBounds | app/api/profile/route.ts:9 | an age is accepted exactly when it is in [18, 100] |
| ProfileRoute.EmbeddingText | app/api/profile/route.ts:44 | the embedding text starts with the bio, ends with the analysis, and adds 12 characters between them |
| ProfileRoute.Prepare | app/api/profile/route.ts:38-45 | the analysis and embedding steps succeed exactly when both AI replies are usable; the analysis is the parsed span and the embedding the fitted 1536 numbers; a failure is one of the three AI errors |
| ProfileRoute.SerializeEmbedding | app/api/profile/route.ts:60 | the stored text is bracketed; its inside is the number texts joined by commas, free of brackets and with one comma fewer than entries when the number texts are plain |
| ProfileRoute.EmbeddingRoundTrip | app/api/profile/route.ts:60 | reading back a stored embedding gives the written number texts, so as many entries as were stored |
| ProfileRoute.Upsert | app/api/profile/route.ts:48-75 | the row holds the submitted fields, the analysis and the stored embedding, complete; a created row is active, an updated one keeps isActive and any omitted coordinate |
| ProfileRoute.Create | app/api/profile/route.ts:50-62 | a created row holds the submitted fields, the analysis and the embedding, is complete and active, and takes the coordinates as given |
| ProfileRoute.Update | app/api/profile/route.ts:63-74 | an updated row holds the submitted fields, the analysis and the embedding, is complete, keeps isActive, and keeps a stored coordinate the body omits |
| ProfileRoute.UpsertBranchesAgree | app/api/profile/route.ts:48-75 | create and update write the same values apart from isActive and omitted coordinates |
| ProfileRoute.ReplacePhotos | app/api/profile/route.ts:77-92 | a non-empty URL list replaces the user's photos, order = index, leaving other users alone; a missing or empty one changes nothing |
| ProfileRoute.Post | app/api/profile/route.ts:24-109 | 401 without a session; 500 for a body that is not JSON; 400 for a non-conforming body; a profile is saved exactly when the session exists, the body is conforming JSON and both AI replies are usable, and a 500 answers exactly the non-JSON body and the failed AI steps; only a save writes, and it stores the upserted row and the replaced photos and nothing else |
| ProfileRoute.PostKeepsUniformDimension | app/api/profile/route.ts:44-75 | a saved profile's embedding reads back with 1536 entries |
| ProfileRoute.UniformDimensionScores | lib/matching.ts:32-35 | when every stored embedding has 1536 entries, scoring never hits the length guard |
| MatchesRoute.Select | app/api/matches/route.ts:16-22 | the selected ids are exactly the caller's non-PASSED rows, in table order |
| MatchesRoute.PhotosOf | app/api/matches/route.ts:26-31 | the user's photos, all of them, in ascending order |
| MatchesRoute.Entries | app/api/matches/route.ts:16-35 | one entry per listed row, each with its row and photos, no repeats |
| MatchesRoute.Get | app/api/matches/route.ts:5-39 | 401 exactly without a session; otherwise a row is listed iff the caller initiated it and it is not PASSED, each once, highest score first |
| MatchesRoute.ListingFacts | app/api/matches/route.ts:36-38 | ordering by score keeps each listed row exactly once |
| MatchesRoute.CandidateRowsNotListed | app/api/matches/route.ts:17-18 | a row where the caller is only the candidate is never listed |
| MatchesRoute.PassHidesOnlyThatRow | app/api/matches/route.ts:19-21 | after a pass the listing drops that row and keeps every other one |
| ProfileForm.Without | app/components/ProfileForm.tsx:71 | filter(g => g !== v) keeps exactly the elements other than v |
| ProfileForm.RemoveOnePosition | app/components/ProfileForm.tsx:73 | in a list without duplicates, removing an element deletes exactly its position |
| ProfileForm.Toggle | app/components/ProfileForm.tsx:67-79 | the list is never empty; "any" stands alone; a gender other than "any" flips its membership and leaves the others; a new gender goes at the end; in a list without repeats a removed gender leaves its neighbours in place, and removing the last one gives ["any"]; "any" returns exactly ["any"] |
| ProfileForm.FilterSteps | app/components/ProfileForm.tsx:71-73 | filtering out "any" keeps a list without it as it is, and filtering out a gender at position k of a list without repeats deletes that position |
| ProfileForm.ToggleKeepsWellFormed | app/components/ProfileForm.tsx:67-79 | from ["any"] or a list of distinct genders, the toggle reaches only such lists |
| ProfileForm.ToggleTwiceRestores | app/components/ProfileForm.tsx:67-79 | toggling a new gender on and off gives the list back |
| ProfileForm.StepOneEnabled | app/components/ProfileForm.tsx:188 | Continue is enabled exactly when the bio has at least 50 characters and age, gender and location are filled |
| ProfileForm.StepOneAdmitsOverlongBio | app/components/ProfileForm.tsx:188 | a 5001-character bio passes step 1 and is then refused by the schema |
| ProfileForm.NonBlankUrls | app/components/ProfileForm.tsx:42 | exactly the URLs that are not blank are submitted |
| ProfileForm.BlankUrlsKeepPhotos | app/components/ProfileForm.tsx:42 | all-blank URL fields submit an empty list, which leaves the stored photos alone |
| ProfileForm.DecimalValue | app/components/ProfileForm.tsx:44-46 | parseInt of a digit string is below ten to the power of its length and ends in its last digit |
| ProfileForm.DecimalText | app/components/ProfileForm.tsx:23-25 | the decimal text of a number is non-empty, has no leading zero, and parseInt reads it back as that number |
| ProfileForm.DefaultsAccepted | app/components/ProfileForm.tsx:23-26 | the initial texts are the decimal texts of 18, 99 and 50, and with ["any"] they pass the schema's preference checks |

## Left out

- Floating point: haversine distance and cosine arithmetic are collaborators (`Oracles.distance`, `Oracles.similarity`). NaN from a zero vector and rounding error are not modelled. Numbers are exact reals.
- `parseFloat`, number-to-text, `JSON.parse` and `JSON.stringify` are collaborators. The analysis is kept as its JSON text.
- The AI calls are inputs: their prompts, models and token limits, and the network. Only the first content block of each reply is modelled.
- Prisma I/O: includes of related users and profiles, generated ids and timestamps. The store is one immutable value.
- Matching.CreateMatches: Promise.all runs the explanations and inserts concurrently, and rows inserted before a rejection persist; the model writes no rows when any explanation fails.
- Matching.CandidatePool: the pool order is unspecified, as the store returns it; the `take: 1` photo include is not modelled.
- Scoring.ParseEmbedding: the branch for an embedding that is not a string (line 56) is not modelled; stored embeddings are text.
- Authentication (`lib/auth.ts`), the like/pass/find route wrappers and the React rendering are not part of this model.
- MatchesRoute.Get: the order among rows of equal score is not stated, and the matched user's profile is reduced to its photos.
- ProfileForm.DecimalValue: parseInt is modelled on digit strings only, enough to read the initial values. parseInt's sign, leading whitespace, radix prefixes and NaN are left out.
- ProfileRoute.Create: isActive is assumed to default to true; the Prisma schema is not part of this model.
- Matching.NewRow: userLiked and matchedUserLiked are not written by the create call (lib/matching.ts:195-202); they are false by an assumed column default, since the Prisma schema is not part of this model.
- ProfileRoute.Post: a failing Prisma write is not modelled. In the source a deleteMany or createMany that fails after the upsert (app/api/profile/route.ts:80-91) answers 500 with the profile already saved and the photos possibly deleted; the model's 500 comes only from a body that is not JSON and from the AI steps, and writes nothing.
- Lifecycle.Like: the two updates of a mutual like (lib/matching.ts:246-256) are one atomic step here; in the source a concurrent request or a failure can fall between them and leave both flags set with status LIKED.
- Dealbreakers are stored and never enforced, as in the source; their AI-derived counterpart in the analysis is not read.
- String lengths count code points, not UTF-16 units.

=== FILE: ai.dfy ===
/** The deterministic parts of lib/ai.ts around the three AI calls: the
    reply-type check, the brace-span extraction of analyzeProfile, the
    comma-split and pad/truncate of generateEmbedding, and the trimmed text of
    generateCompatibilityExplanation. The replies themselves are inputs. */
module Ai {
  import opened Domain
  import Text

  /** Dimension of every generated embedding. */
  const EmbeddingDim: nat := 1536

  /** The numbers cut or zero-padded to exactly EmbeddingDim entries. */
  function Fit(numbers: seq<real>): (r: seq<real>)
    ensures |r| == EmbeddingDim
    ensures forall i :: 0 <= i < |numbers| && i < EmbeddingDim ==> r[i] == numbers[i]
    ensures forall i :: |numbers| <= i < EmbeddingDim ==> r[i] == 0.0
  {
    if |numbers| >= EmbeddingDim then numbers[..EmbeddingDim]
    else numbers + seq(EmbeddingDim - |numbers|, _ => 0.0)
  }

  /** A vector that already has EmbeddingDim entries is left as it is. */
  lemma FitKeepsFullVector(numbers: seq<real>)
    requires |numbers| == EmbeddingDim
    ensures Fit(numbers) == numbers
  {
  }

  /** Padding or truncating twice is doing it once. */
  lemma FitIdempotent(numbers: seq<real>)
    ensures Fit(Fit(numbers)) == Fit(numbers)
  {
    FitKeepsFullVector(Fit(numbers));
  }

  /** The loop of generateEmbedding: push 0 while shorter than EmbeddingDim,
      then keep the first EmbeddingDim entries. */
  method PadOrTruncate(numbers: seq<real>) returns (r: seq<real>)
    ensures |r| == EmbeddingDim
    ensures forall i :: 0 <= i < |numbers| && i < EmbeddingDim ==> r[i] == numbers[i]
    ensures forall i :: |numbers| <= i < EmbeddingDim ==> r[i] == 0.0
    ensures r == Fit(numbers)
  {
    var buffer := numbers;
    while |buffer| < EmbeddingDim
      invariant |numbers| <= |buffer|
      invariant buffer[..|numbers|] == numbers
      invariant forall i :: |numbers| <= i < |buffer| ==> buffer[i] == 0.0
      invariant |numbers| <= EmbeddingDim ==> |buffer| <= EmbeddingDim
      decreases EmbeddingDim - |buffer|
    {
      buffer := buffer + [0.0];
    }
    r := buffer[..EmbeddingDim];
    assert forall i :: 0 <= i < |numbers| && i < EmbeddingDim ==> r[i] == buffer[..|numbers|][i];
  }

  /** text.trim().split(',').map(n => parseFloat(n.trim())): one number per
      comma of the reply, plus one. */
  function ParseNumbers(text: string, parseNumber: string -> real): (numbers: seq<real>)
    ensures |numbers| == Text.Occurrences(text, ',') + 1
  {
    var pieces := Text.Split(Text.Trim(text), ',');
    Text.TrimKeepsCount(text, ',');
    seq(|pieces|, i requires 0 <= i < |pieces| => parseNumber(Text.Trim(pieces[i])))
  }

  /** generateEmbedding after the AI call: a non-text reply throws; otherwise
      the parsed numbers fitted to EmbeddingDim entries. */
  function GenerateEmbedding(reply: Content, parseNumber: string -> real): (r: Result<seq<real>>)
    ensures r.Err? <==> reply.OtherBlock?
    ensures r.Err? ==> r.error == UnexpectedResponseType
    ensures r.Ok? ==> |r.value| == EmbeddingDim
    ensures r.Ok? ==> r.value == Fit(ParseNumbers(reply.text, parseNumber))
  {
    match reply
    case OtherBlock => Err(UnexpectedResponseType)
    case TextBlock(text) => Ok(Fit(ParseNumbers(text, parseNumber)))
  }

  /** A reply with k commas yields k + 1 parsed numbers, of which the first
      min(k + 1, EmbeddingDim) survive in order and the rest of the vector is 0. */
  lemma EmbeddingKeepsParsedPrefix(text: string, parseNumber: string -> real)
    ensures var numbers := ParseNumbers(text, parseNumber);
            var r := GenerateEmbedding(TextBlock(text), parseNumber);
            && r.Ok?
            && |numbers| == Text.Occurrences(text, ',') + 1
            && (forall i :: 0 <= i < |numbers| && i < EmbeddingDim ==> r.value[i] == numbers[i])
            && (forall i :: |numbers| <= i < EmbeddingDim ==> r.value[i] == 0.0)
  {
  }

  /** text[i..k] is a match of /\{[\s\S]*\}/: it opens with '{' and closes with '}'. */
  predicate BraceSpan(text: string, i: int, k: int) {
    0 <= i && i + 2 <= k <= |text| && text[i] == '{' && text[k - 1] == '}'
  }

  /** Index of the last occurrence of c in s. */
  function LastIndexOf(s: string, c: char): (i: nat)
    requires c in s
    ensures i < |s| && s[i] == c
    ensures forall k :: i < k < |s| ==> s[k] != c
  {
    if s[|s| - 1] == c then |s| - 1
    else
      var init := s[..|s| - 1];
      assert c in init by {
        var k :| 0 <= k < |s| && s[k] == c;
        assert init[k] == c;
      }
      LastIndexOf(init, c)
  }

  /** The JSON extraction of analyzeProfile: the regular expression's match,
      which starts at the leftmost '{' and, being greedy, runs to the last '}';
      no '}' after a '{' throws 'Could not parse AI response'. */
  function ExtractJson(text: string): (r: Result<string>)
    ensures r.Err? <==> forall i, k :: !BraceSpan(text, i, k)
    ensures r.Err? ==> r.error == UnparsableAiResponse
    ensures r.Ok? ==>
      exists i, k :: && BraceSpan(text, i, k)
                     && r.value == text[i..k]
                     && forall i', k' :: BraceSpan(text, i', k') ==> i < i' || (i == i' && k' <= k)
  {
    if '{' !in text || '}' !in text then Err(UnparsableAiResponse)
    else
      var i := Text.IndexOf(text, '{');
      var j := LastIndexOf(text, '}');
      if j < i then Err(UnparsableAiResponse)
      else
        assert text[i] != text[j];
        assert BraceSpan(text, i, j + 1);
        Ok(text[i..j + 1])
  }

  /** analyzeProfile after the AI call: a non-text reply or an unmatched brace
      throws; otherwise the span goes through JSON.parse. */
  function AnalyzeProfile(reply: Content, parseJson: string -> Option<Analysis>): (r: Result<Analysis>)
    ensures reply.OtherBlock? ==> r == Err(UnexpectedResponseType)
    ensures reply.TextBlock? && ExtractJson(reply.text).Err? ==> r == Err(UnparsableAiResponse)
    ensures r.Ok? ==> exists i, k :: BraceSpan(reply.text, i, k) && parseJson(reply.text[i..k]) == Some(r.value)
    ensures reply.TextBlock? && ExtractJson(reply.text).Ok? ==>
      var span := ExtractJson(reply.text).value;
      && (r.Ok? <==> parseJson(span).Some?)
      && (r.Ok? ==> parseJson(span) == Some(r.value))
      && (r.Err? ==> r.error == MalformedJson)
  {
    match reply
    case OtherBlock => Err(UnexpectedResponseType)
    case TextBlock(text) =>
      var span :- ExtractJson(text);
      match parseJson(span)
      case None => Err(MalformedJson)
      case Some(analysis) => Ok(analysis)
  }

  /** generateCompatibilityExplanation after the AI call: the trimmed reply text. */
  function GenerateExplanation(reply: Content): (r: Result<string>)
    ensures r.Err? <==> reply.OtherBlock?
    ensures r.Err? ==> r.error == UnexpectedResponseType
    ensures r.Ok? ==> r.value == Text.Trim(reply.text)
  {
    match reply
    case OtherBlock => Err(UnexpectedResponseType)
    case TextBlock(text) => Ok(Text.Trim(text))
  }
}

=== FILE: domain.dfy ===
/** The records of the matching core: profiles with their preference set,
    directed match rows with their like/pass status, the errors the source
    throws, and the collaborators (geometry, vector arithmetic, number text,
    AI replies) that the core calls but does not define. */
module Domain {

  datatype Option<+T> = None | Some(value: T) {
    predicate IsFailure() {
      None?
    }

    function PropagateFailure<U>(): Option<U>
      requires None?
    {
      None
    }

    function Extract(): T
      requires Some?
    {
      value
    }
  }

  /** The errors the core throws, one per message. */
  datatype Error =
    | ProfileNotComplete       // 'User profile not complete'
    | VectorLengthMismatch     // 'Vectors must have same length'
    | MatchNotFound            // 'Match not found'
    | UnexpectedResponseType   // 'Unexpected response type'
    | UnparsableAiResponse     // 'Could not parse AI response'
    | MalformedJson            // JSON.parse throwing a SyntaxError

  /** A value, or the error an operation throws instead of returning it. */
  datatype Result<+T> = Ok(value: T) | Err(error: Error) {
    predicate IsFailure() {
      Err?
    }

    function PropagateFailure<U>(): Result<U>
      requires Err?
    {
      Err(error)
    }

    function Extract(): T
      requires Ok?
    {
      value
    }
  }

  type UserId = string

  /** Position of a row in the match table; rows are appended and never deleted. */
  type MatchId = nat

  /** The AI analysis of a bio (CompatibilitySignals), kept as its JSON text. */
  type Analysis = string

  /** UserPreferences, as stored with a profile. */
  datatype Prefs = Prefs(
    ageMin: real,
    ageMax: real,
    maxDistance: real,               // kilometres
    genderPreference: seq<string>,   // e.g. ["female"], or ["any"]
    dealbreakers: seq<string>)       // descriptive only, never enforced

  /** A profile row; the table is keyed by the owner's user id. */
  datatype Profile = Profile(
    bio: string,
    age: real,
    gender: string,
    location: string,
    latitude: Option<real>,
    longitude: Option<real>,
    prefs: Prefs,
    analysis: Analysis,
    embedding: Option<string>,       // pgvector text "[n1,n2,...]", or null
    isComplete: bool,
    isActive: bool)

  datatype Status = Pending | Liked | Mutual | Passed

  /** A directed match row from the initiator (userId) to the candidate (matchedUserId). */
  datatype Match = Match(
    userId: UserId,
    matchedUserId: UserId,
    score: int,
    explanation: string,
    userLiked: bool,
    matchedUserLiked: bool,
    status: Status)

  /** A photo row of a profile; order is the position in the submitted list. */
  datatype Photo = Photo(url: string, order: nat)

  /** The store: profiles and their photos keyed by user id, and the match table. */
  datatype Db = Db(
    profiles: map<UserId, Profile>,
    photos: map<UserId, seq<Photo>>,
    matches: seq<Match>)

  /** The first content block of an AI reply. */
  datatype Content = TextBlock(text: string) | OtherBlock

  /** The collaborators the core calls but cannot see, as plain functions. */
  datatype Oracles = Oracles(
    distance: (real, real, real, real) -> real,                 // calculateDistance (haversine, km)
    similarity: (seq<real>, seq<real>) -> real,                // cosine arithmetic on equal-length vectors
    parseNumber: string -> real,                               // parseFloat
    formatNumber: real -> string,                              // number to text, as join writes it
    parseJson: string -> Option<Analysis>,                     // JSON.parse; None when it throws
    analysisReply: string -> Content,                          // AI reply to the analysis prompt for a bio
    embeddingReply: string -> Content,                         // AI reply to the embedding prompt for a text
    explanationReply: (Analysis, Analysis, int) -> Content)    // AI reply to the explanation prompt
}

=== FILE: eligibility.dfy ===
/** The rule-based filter of findMatches (lib/matching.ts): mutual age bounds,
    mutual gender preference with the "any" wildcard, and a mutual distance
    bound applied only when all four coordinates are truthy. */
module Eligibility {
  import opened Domain

  /** JavaScript truthiness of an optional coordinate: present and non-zero. */
  predicate Truthy(x: Option<real>) {
    x.Some? && x.value != 0.0
  }

  predicate Within(x: real, lo: real, hi: real) {
    lo <= x <= hi
  }

  /** The age check, with me as the requester and other as the candidate. */
  function AgeCheck(me: Profile, other: Profile): (ok: bool)
    ensures ok <==> (Within(other.age, me.prefs.ageMin, me.prefs.ageMax) &&
                     Within(me.age, other.prefs.ageMin, other.prefs.ageMax))
  {
    !(other.age < me.prefs.ageMin || other.age > me.prefs.ageMax ||
      me.age < other.prefs.ageMin || me.age > other.prefs.ageMax)
  }

  /** A preference list admits a gender when it holds "any" or that gender. */
  predicate Admits(prefs: Prefs, gender: string) {
    "any" in prefs.genderPreference || gender in prefs.genderPreference
  }

  /** The two gender checks, requester's list first. */
  function GenderCheck(me: Profile, other: Profile): (ok: bool)
    ensures ok <==> Admits(me.prefs, other.gender) && Admits(other.prefs, me.gender)
  {
    if "any" !in me.prefs.genderPreference && other.gender !in me.prefs.genderPreference then false
    else if "any" !in other.prefs.genderPreference && me.gender !in other.prefs.genderPreference then false
    else true
  }

  /** The distance check runs only when all four coordinates are truthy. */
  predicate DistanceApplies(me: Profile, other: Profile) {
    Truthy(me.latitude) && Truthy(me.longitude) && Truthy(other.latitude) && Truthy(other.longitude)
  }

  function DistanceCheck(me: Profile, other: Profile, distance: (real, real, real, real) -> real): (ok: bool)
    ensures !DistanceApplies(me, other) ==> ok
    ensures DistanceApplies(me, other) ==>
      (ok <==> var d := distance(me.latitude.value, me.longitude.value, other.latitude.value, other.longitude.value);
               d <= me.prefs.maxDistance && d <= other.prefs.maxDistance)
  {
    if me.latitude.Some? && me.latitude.value != 0.0 && me.longitude.Some? && me.longitude.value != 0.0 &&
       other.latitude.Some? && other.latitude.value != 0.0 && other.longitude.Some? && other.longitude.value != 0.0
    then
      var d := distance(me.latitude.value, me.longitude.value, other.latitude.value, other.longitude.value);
      !(d > me.prefs.maxDistance || d > other.prefs.maxDistance)
    else true
  }

  /** The whole filter: age, then gender, then distance; a candidate survives all three or is dropped. */
  function Eligible(me: Profile, other: Profile, distance: (real, real, real, real) -> real): (ok: bool)
    ensures ok <==> AgeCheck(me, other) && GenderCheck(me, other) && DistanceCheck(me, other, distance)
  {
    if !AgeCheck(me, other) then false
    else if !GenderCheck(me, other) then false
    else DistanceCheck(me, other, distance)
  }

  ghost predicate SymmetricDistance(distance: (real, real, real, real) -> real) {
    forall a, b, c, d :: distance(a, b, c, d) == distance(c, d, a, b)
  }

  /** With a symmetric distance, swapping requester and candidate gives the same verdict. */
  lemma EligibleSymmetric(me: Profile, other: Profile, distance: (real, real, real, real) -> real)
    requires SymmetricDistance(distance)
    ensures Eligible(me, other, distance) == Eligible(other, me, distance)
  {
    if DistanceApplies(me, other) {
      assert distance(me.latitude.value, me.longitude.value, other.latitude.value, other.longitude.value)
          == distance(other.latitude.value, other.longitude.value, me.latitude.value, me.longitude.value);
    }
  }

  /** A coordinate equal to 0 reads as absent: the distance bound is skipped whatever the distance. */
  lemma ZeroCoordinateSkipsDistance(me: Profile, other: Profile, distance: (real, real, real, real) -> real)
    requires me.latitude == Some(0.0) || me.longitude == Some(0.0) ||
             other.latitude == Some(0.0) || other.longitude == Some(0.0)
    ensures Eligible(me, other, distance) <==> AgeCheck(me, other) && GenderCheck(me, other)
  {
  }

  /** Dealbreakers take no part in the verdict. */
  lemma DealbreakersIgnored(me: Profile, other: Profile, d1: seq<string>, d2: seq<string>,
                            distance: (real, real, real, real) -> real)
    ensures Eligible(me.(prefs := me.prefs.(dealbreakers := d1)), other.(prefs := other.prefs.(dealbreakers := d2)), distance)
         == Eligible(me, other, distance)
  {
  }
}

=== FILE: lifecycle.dfy ===
/** likeMatch and passMatch of lib/matching.ts, as pure transformers of the
    match table. Written as the source behaves: likeMatch does not check that
    the actor is a party, has no guard on PASSED or MUTUAL rows, and returns
    the row as it was before the MUTUAL update. */
module Lifecycle {
  import opened Domain

  /** What likeMatch returns ({ mutual, match }) and the table after its updates. */
  datatype LikeOutcome = LikeOutcome(mutual: bool, snapshot: Match, table: seq<Match>)

  /** The first update of likeMatch: the initiator sets userLiked and LIKED,
      anyone else sets matchedUserLiked only. */
  function LikeUpdate(m: Match, actor: UserId): (r: Match)
    ensures r.userLiked == (m.userLiked || actor == m.userId)
    ensures r.matchedUserLiked == (m.matchedUserLiked || actor != m.userId)
    ensures r.status == (if actor == m.userId then Liked else m.status)
    ensures r.(userLiked := m.userLiked, matchedUserLiked := m.matchedUserLiked, status := m.status) == m
  {
    if m.userId == actor then m.(userLiked := true, status := Liked)
    else m.(matchedUserLiked := true)
  }

  /** likeMatch(actor, id). */
  function Like(table: seq<Match>, actor: UserId, id: MatchId): (r: Result<LikeOutcome>)
    ensures r.Err? <==> id >= |table|
    ensures r.Err? ==> r.error == MatchNotFound
    ensures r.Ok? ==> |r.value.table| == |table|
    ensures r.Ok? ==> forall k :: 0 <= k < |table| && k != id ==> r.value.table[k] == table[k]
    ensures r.Ok? ==>
      var before := table[id];
      var after := r.value.table[id];
      && after.userId == before.userId
      && after.matchedUserId == before.matchedUserId
      && after.score == before.score
      && after.explanation == before.explanation
      && after.userLiked == (before.userLiked || actor == before.userId)
      && after.matchedUserLiked == (before.matchedUserLiked || actor != before.userId)
      && (r.value.mutual <==> after.userLiked && after.matchedUserLiked)
      && (r.value.mutual ==> after.status == Mutual)
      && (!r.value.mutual && actor == before.userId ==> after.status == Liked)
      && (!r.value.mutual && actor != before.userId ==> after.status == before.status)
      && r.value.snapshot == after.(status := if actor == before.userId then Liked else before.status)
  {
    if id >= |table| then Err(MatchNotFound)
    else
      var updated := LikeUpdate(table[id], actor);
      if updated.userLiked && updated.matchedUserLiked then
        Ok(LikeOutcome(true, updated, table[id := updated.(status := Mutual)]))
      else
        Ok(LikeOutcome(false, updated, table[id := updated]))
  }

  /** passMatch(actor, id): status PASSED whoever acts and whatever the
      current status; the like flags are left as they are. */
  function Pass(table: seq<Match>, actor: UserId, id: MatchId): (r: Result<seq<Match>>)
    ensures r.Err? <==> id >= |table|
    ensures r.Err? ==> r.error == MatchNotFound
    ensures r.Ok? ==> |r.value| == |table|
    ensures r.Ok? ==> forall k :: 0 <= k < |table| && k != id ==> r.value[k] == table[k]
    ensures r.Ok? ==> r.value[id].status == Passed
    ensures r.Ok? ==> r.value[id].(status := table[id].status) == table[id]
  {
    if id >= |table| then Err(MatchNotFound)
    else Ok(table[id := table[id].(status := Passed)])
  }

  /** Passing twice, by anyone, is passing once. */
  lemma PassIdempotent(table: seq<Match>, a: UserId, b: UserId, id: MatchId)
    requires id < |table|
    ensures Pass(Pass(table, a, id).value, b, id) == Pass(table, a, id)
  {
    var t := Pass(table, a, id).value;
    assert t[id].(status := Passed) == t[id];
    assert t[id := t[id]] == t;
  }

  /** Who passes makes no difference. */
  lemma PassIgnoresActor(table: seq<Match>, a: UserId, b: UserId, id: MatchId)
    ensures Pass(table, a, id) == Pass(table, b, id)
  {
  }

  /** A row's status agrees with its flags: LIKED only once the initiator
      liked, MUTUAL only once both did. */
  predicate Consistent(m: Match) {
    && (m.status == Liked ==> m.userLiked)
    && (m.status == Mutual ==> m.userLiked && m.matchedUserLiked)
  }

  ghost predicate AllConsistent(table: seq<Match>) {
    forall k :: 0 <= k < |table| ==> Consistent(table[k])
  }

  /** like and pass keep every row consistent. */
  lemma LikeKeepsConsistent(table: seq<Match>, actor: UserId, id: MatchId)
    requires AllConsistent(table)
    requires id < |table|
    ensures AllConsistent(Like(table, actor, id).value.table)
  {
    var t := Like(table, actor, id).value.table;
    assert Consistent(t[id]);
  }

  lemma PassKeepsConsistent(table: seq<Match>, actor: UserId, id: MatchId)
    requires AllConsistent(table)
    requires id < |table|
    ensures AllConsistent(Pass(table, actor, id).value)
  {
  }

  /** The life of a fresh row: the initiator likes (LIKED, not mutual), then the
      other party likes (MUTUAL, reported mutual), then a pass ends it in PASSED. */
  lemma LikeLikePass(table: seq<Match>, id: MatchId)
    requires id < |table|
    requires table[id].status == Pending && !table[id].userLiked && !table[id].matchedUserLiked
    requires table[id].userId != table[id].matchedUserId
    ensures var first := Like(table, table[id].userId, id).value;
            && !first.mutual
            && first.table[id].status == Liked
            && var second := Like(first.table, table[id].matchedUserId, id).value;
            && second.mutual
            && second.table[id].status == Mutual
            && second.snapshot.status == Liked
            && Pass(second.table, table[id].matchedUserId, id).value[id].status == Passed
  {
  }

  /** Either order of the two likes reaches MUTUAL. */
  lemma CandidateFirstThenInitiator(table: seq<Match>, id: MatchId)
    requires id < |table|
    requires table[id].status == Pending && !table[id].userLiked && !table[id].matchedUserLiked
    requires table[id].userId != table[id].matchedUserId
    ensures var first := Like(table, table[id].matchedUserId, id).value;
            && !first.mutual
            && first.table[id].status == Pending
            && var second := Like(first.table, table[id].userId, id).value;
            && second.mutual
            && second.table[id].status == Mutual
  {
  }

  /** No terminal guard: the initiator liking a PASSED row takes it out of PASSED. */
  lemma InitiatorLikeLeavesPassed(table: seq<Match>, id: MatchId)
    requires id < |table|
    requires table[id].status == Passed
    ensures Like(table, table[id].userId, id).value.table[id].status in {Liked, Mutual}
  {
  }

  /** No party check: a like by someone outside the row counts as the candidate's. */
  lemma OutsiderLikeCountsForCandidate(table: seq<Match>, outsider: UserId, id: MatchId)
    requires id < |table|
    requires outsider != table[id].userId && outsider != table[id].matchedUserId
    ensures Like(table, outsider, id).value.table[id].matchedUserLiked
  {
  }

  /** Once both flags are set, every later like reports mutual again and
      leaves a consistent MUTUAL row MUTUAL. */
  lemma MutualReportedOnEveryLike(table: seq<Match>, actor: UserId, id: MatchId)
    requires id < |table|
    requires table[id].userLiked && table[id].matchedUserLiked
    ensures Like(table, actor, id).value.mutual
    ensures Like(table, actor, id).value.table[id].status == Mutual
  {
  }
}

=== FILE: matches_route.dfy ===
/** GET /api/matches (app/api/matches/route.ts): the caller's initiated rows
    that are not PASSED, highest score first, each with the matched user's
    photos in ascending order. Authentication is an input. */
module MatchesRoute {
  import opened Domain
  import Sorting
  import Sequences
  import Lifecycle

  /** One listed row: its id in the match table, the row, and the matched user's photos. */
  datatype Entry = Entry(id: MatchId, m: Match, photos: seq<Photo>)

  function EntryScore(e: Entry): int {
    e.m.score
  }

  /** The where clause: initiated by the caller and not PASSED. */
  predicate Listed(table: seq<Match>, caller: UserId, id: MatchId) {
    id < |table| && table[id].userId == caller && table[id].status != Passed
  }

  /** The ids of rows [0, n) that the where clause keeps, in table order. */
  function Select(table: seq<Match>, caller: UserId, n: nat): (ids: seq<MatchId>)
    requires n <= |table|
    ensures forall id: MatchId :: id in ids <==> id < n && Listed(table, caller, id)
    ensures forall i, j :: 0 <= i < j < |ids| ==> ids[i] < ids[j]
  {
    if n == 0 then []
    else
      var ids := Select(table, caller, n - 1);
      assert forall k :: 0 <= k < |ids| ==> ids[k] in ids;
      if Listed(table, caller, n - 1) then ids + [n - 1] else ids
  }

  /** Photos sort ascending by order: descending by the negated order. */
  function NegatedOrder(p: Photo): int {
    -(p.order as int)
  }

  /** orderBy { order: 'asc' } over the user's photos; a user without photos has none. */
  function PhotosOf(photos: map<UserId, seq<Photo>>, u: UserId): (r: seq<Photo>)
    ensures forall i, j :: 0 <= i < j < |r| ==> r[i].order <= r[j].order
    ensures u in photos ==> multiset(r) == multiset(photos[u])
    ensures u !in photos ==> r == []
  {
    if u in photos then
      var sorted := Sorting.SortDesc(photos[u], NegatedOrder);
      assert forall i, j :: 0 <= i < j < |sorted| ==> NegatedOrder(sorted[i]) >= NegatedOrder(sorted[j]);
      sorted
    else []
  }

  function EntryOf(db: Db, id: MatchId): Entry
    requires id < |db.matches|
  {
    Entry(id, db.matches[id], PhotosOf(db.photos, db.matches[id].matchedUserId))
  }

  /** The listed rows in table order, before the score ordering. */
  function Entries(db: Db, caller: UserId): (es: seq<Entry>)
    ensures forall e: Entry :: e in es <==> Listed(db.matches, caller, e.id) && e == EntryOf(db, e.id)
    ensures Sequences.Unique(es)
  {
    var ids := Select(db.matches, caller, |db.matches|);
    var es := seq(|ids|, i requires 0 <= i < |ids| => assert ids[i] in ids; EntryOf(db, ids[i]));
    assert forall e :: e in es ==> Listed(db.matches, caller, e.id) && e == EntryOf(db, e.id) by {
      forall e | e in es
        ensures Listed(db.matches, caller, e.id) && e == EntryOf(db, e.id)
      {
        var k :| 0 <= k < |es| && es[k] == e;
        assert ids[k] in ids;
      }
    }
    assert forall id :: Listed(db.matches, caller, id) ==> EntryOf(db, id) in es by {
      forall id | Listed(db.matches, caller, id)
        ensures EntryOf(db, id) in es
      {
        var k :| 0 <= k < |ids| && ids[k] == id;
        assert es[k] == EntryOf(db, id);
      }
    }
    es
  }

  /** The reply of GET /api/matches. */
  datatype Listing = NotAuthenticated | Matches(entries: seq<Entry>) {
    function Status(): int {
      if NotAuthenticated? then 401 else 200
    }
  }

  /** GET /api/matches: 401 without a user; otherwise exactly the caller's
      rows that are not PASSED, each once, highest score first. */
  function Get(db: Db, session: Option<UserId>): (r: Listing)
    ensures r.NotAuthenticated? <==> session.None?
    ensures r.Matches? ==> forall e :: e in r.entries ==> Listed(db.matches, session.value, e.id) && e == EntryOf(db, e.id)
    ensures r.Matches? ==> forall id :: Listed(db.matches, session.value, id) ==> EntryOf(db, id) in r.entries
    ensures r.Matches? ==> forall i, j :: 0 <= i < j < |r.entries| ==> r.entries[i].id != r.entries[j].id
    ensures r.Matches? ==> Sorting.SortedDesc(r.entries, EntryScore)
  {
    match session
    case None => NotAuthenticated
    case Some(caller) =>
      var es := Entries(db, caller);
      var sorted := Sorting.SortDesc(es, EntryScore);
      ListingFacts(db, caller, es, sorted);
      Matches(sorted)
  }

  /** Ordering the entries by score keeps each of them exactly once. */
  lemma ListingFacts(db: Db, caller: UserId, es: seq<Entry>, sorted: seq<Entry>)
    requires es == Entries(db, caller)
    requires multiset(sorted) == multiset(es)
    ensures forall e :: e in sorted <==> e in es
    ensures forall i, j :: 0 <= i < j < |sorted| ==> sorted[i].id != sorted[j].id
  {
    forall e
      ensures e in sorted <==> e in es
    {
      assert e in sorted <==> e in multiset(sorted);
      assert e in es <==> e in multiset(es);
    }
    Sequences.PermutationKeepsUnique(es, sorted);
    forall i, j | 0 <= i < j < |sorted|
      ensures sorted[i].id != sorted[j].id
    {
      assert sorted[i] in es && sorted[j] in es;
    }
  }

  /** The listing never shows a row the caller was only the candidate of. */
  lemma CandidateRowsNotListed(db: Db, caller: UserId, id: MatchId)
    requires id < |db.matches|
    requires db.matches[id].matchedUserId == caller && db.matches[id].userId != caller
    ensures forall e :: e in Get(db, Some(caller)).entries ==> e.id != id
  {
  }

  /** After passMatch on a row, the listing drops that row and keeps every other one. */
  lemma PassHidesOnlyThatRow(db: Db, caller: UserId, actor: UserId, id: MatchId)
    requires id < |db.matches|
    ensures var after := db.(matches := Lifecycle.Pass(db.matches, actor, id).value);
            && (forall e :: e in Get(after, Some(caller)).entries ==> e.id != id)
            && (forall e :: e in Get(db, Some(caller)).entries && e.id != id ==> e in Get(after, Some(caller)).entries)
  {
    var after := db.(matches := Lifecycle.Pass(db.matches, actor, id).value);
    forall e | e in Get(db, Some(caller)).entries && e.id != id
      ensures e in Get(after, Some(caller)).entries
    {
      assert after.matches[e.id] == db.matches[e.id];
      assert EntryOf(after, e.id) == EntryOf(db, e.id);
    }
  }
}

=== FILE: matching.dfy ===
/** findMatches of lib/matching.ts: the requester check, the candidate pool
    (self and every user already linked to the requester excluded), the
    eligibility filter, the similarity score, the descending sort, the
    truncation to the limit and the PENDING rows created for the shortlist. */
module Matching {
  import opened Domain
  import Text
  import Scoring
  import Eligibility
  import Sorting
  import Sequences
  import Ai

  /** Row m links users a and b, in either direction. */
  predicate Links(m: Match, a: UserId, b: UserId) {
    (m.userId == a && m.matchedUserId == b) || (m.userId == b && m.matchedUserId == a)
  }

  predicate Involves(m: Match, u: UserId) {
    m.userId == u || m.matchedUserId == u
  }

  /** Some row of the table links a and b. */
  ghost predicate Linked(matches: seq<Match>, a: UserId, b: UserId) {
    exists i :: 0 <= i < |matches| && Links(matches[i], a, b)
  }

  /** The excluded id set of findMatches: both parties of every row that
      involves the requester, and the requester. */
  function ExcludedUsers(matches: seq<Match>, requester: UserId): (ids: set<UserId>)
    ensures forall u :: u in ids <==> u == requester || Linked(matches, requester, u)
  {
    if matches == [] then {requester}
    else
      var init := matches[..|matches| - 1];
      var m := matches[|matches| - 1];
      var rest := ExcludedUsers(init, requester);
      assert forall i :: 0 <= i < |init| ==> init[i] == matches[i];
      assert forall u :: Linked(matches, requester, u) <==> Linked(init, requester, u) || Links(m, requester, u);
      if Involves(m, requester) then rest + {m.userId, m.matchedUserId} else rest
  }

  /** A user who shares any row with the requester, whatever its status, is
      excluded from the requester's next pool. */
  lemma PriorMatchExcludes(matches: seq<Match>, requester: UserId, i: nat)
    requires i < |matches|
    requires Involves(matches[i], requester)
    ensures matches[i].userId in ExcludedUsers(matches, requester)
    ensures matches[i].matchedUserId in ExcludedUsers(matches, requester)
  {
    if matches[i].userId == requester {
      assert Links(matches[i], requester, matches[i].matchedUserId);
    } else {
      assert Links(matches[i], requester, matches[i].userId);
    }
  }

  /** The profile query: not excluded, complete, active, embedding not null. */
  predicate InPool(u: UserId, p: Profile, excluded: set<UserId>) {
    u !in excluded && p.isComplete && p.isActive && p.embedding.Some?
  }

  /** The user ids of the profiles the pool query returns, in the store's
      (unspecified) order. */
  method CandidatePool(profiles: map<UserId, Profile>, excluded: set<UserId>) returns (pool: seq<UserId>)
    ensures forall i :: 0 <= i < |pool| ==> pool[i] in profiles && InPool(pool[i], profiles[pool[i]], excluded)
    ensures forall u :: u in profiles && InPool(u, profiles[u], excluded) ==> u in pool
    ensures Sequences.Unique(pool)
  {
    var rest := profiles.Keys;
    pool := [];
    while rest != {}
      invariant rest <= profiles.Keys
      invariant forall i :: 0 <= i < |pool| ==> pool[i] in profiles && pool[i] !in rest && InPool(pool[i], profiles[pool[i]], excluded)
      invariant forall u :: u in profiles && u !in rest && InPool(u, profiles[u], excluded) ==> u in pool
      invariant Sequences.Unique(pool)
      decreases rest
    {
      var u :| u in rest;
      if InPool(u, profiles[u], excluded) {
        pool := pool + [u];
      }
      rest := rest - {u};
    }
  }

  /** The requester's embedding is truthy: present and not the empty string. */
  predicate HasEmbedding(p: Profile) {
    p.embedding.Some? && p.embedding.value != ""
  }

  function Vector(p: Profile, o: Oracles): seq<real>
    requires p.embedding.Some?
  {
    Scoring.ParseEmbedding(p.embedding.value, o.parseNumber)
  }

  /** The score findMatches gives candidate p of requester me. */
  function ScoreOf(me: Profile, p: Profile, o: Oracles): int
    requires me.embedding.Some? && p.embedding.Some?
  {
    Scoring.ToScore(o.similarity(Vector(me, o), Vector(p, o)))
  }

  /** An eligible candidate whose vector length differs from the requester's:
      cosineSimilarity throws on it. */
  ghost predicate Mismatch(me: Profile, p: Profile, o: Oracles)
    requires me.embedding.Some? && p.embedding.Some?
  {
    Eligibility.Eligible(me, p, o.distance) && |Vector(p, o)| != |Vector(me, o)|
  }

  /** A survivor of the filter, with its score. */
  datatype Candidate = Candidate(userId: UserId, profile: Profile, score: int)

  function CandidateScore(c: Candidate): int {
    c.score
  }

  function Users(cs: seq<Candidate>): (us: seq<UserId>)
    ensures |us| == |cs|
    ensures forall i :: 0 <= i < |cs| ==> us[i] == cs[i].userId
  {
    seq(|cs|, i requires 0 <= i < |cs| => cs[i].userId)
  }

  /** A candidate carries the profile stored for its user and the score of that profile. */
  ghost predicate Faithful(me: Profile, profiles: map<UserId, Profile>, c: Candidate, o: Oracles)
    requires me.embedding.Some?
  {
    && c.userId in profiles
    && c.profile == profiles[c.userId]
    && c.profile.embedding.Some?
    && Eligibility.Eligible(me, c.profile, o.distance)
    && c.score == ScoreOf(me, c.profile, o)
  }

  /** One step of the map/filter over the pool: an ineligible profile gives
      no candidate, an eligible one its score, or the throw of cosineSimilarity. */
  function ScoreOne(me: Profile, profiles: map<UserId, Profile>, u: UserId, o: Oracles): (r: Result<Option<Candidate>>)
    requires me.embedding.Some?
    requires u in profiles && profiles[u].embedding.Some?
    ensures r.Err? <==> Mismatch(me, profiles[u], o)
    ensures r.Err? ==> r.error == VectorLengthMismatch
    ensures r == Ok(None) <==> !Eligibility.Eligible(me, profiles[u], o.distance)
    ensures r.Ok? && r.value.Some? ==> r.value.value.userId == u && Faithful(me, profiles, r.value.value, o)
  {
    var p := profiles[u];
    if !Eligibility.Eligible(me, p, o.distance) then Ok(None)
    else
      var similarity := Scoring.CosineSimilarity(Vector(me, o), Vector(p, o), o.similarity);
      if similarity.Err? then Err(similarity.error)
      else Ok(Some(Candidate(u, p, Scoring.ToScore(similarity.value))))
  }

  /** The map/filter step over the pool: the eligible candidates with their
      scores, in pool order; a length mismatch on an eligible one throws. */
  function ScoreCandidates(me: Profile, profiles: map<UserId, Profile>, pool: seq<UserId>, o: Oracles): (r: Result<seq<Candidate>>)
    requires me.embedding.Some?
    requires forall u :: u in pool ==> u in profiles && profiles[u].embedding.Some?
    ensures r.Err? <==> exists u :: u in pool && Mismatch(me, profiles[u], o)
    ensures r.Err? ==> r.error == VectorLengthMismatch
    ensures r.Ok? ==> forall c :: c in r.value ==> c.userId in pool && Faithful(me, profiles, c, o)
  {
    if pool == [] then Ok([])
    else
      var u := pool[0];
      assert pool == [u] + pool[1..];
      var step := ScoreOne(me, profiles, u, o);
      var rest := ScoreCandidates(me, profiles, pool[1..], o);
      if step.Err? then Err(step.error)
      else if rest.Err? then rest
      else if step.value.None? then rest
      else Ok([step.value.value] + rest.value)
  }

  /** One step of the scoring recursion: the head of the pool contributes at
      most one candidate, for itself, exactly when it is eligible. */
  lemma ScoredStep(me: Profile, profiles: map<UserId, Profile>, pool: seq<UserId>, o: Oracles)
    requires me.embedding.Some?
    requires forall u :: u in pool ==> u in profiles && profiles[u].embedding.Some?
    requires pool != [] && ScoreCandidates(me, profiles, pool, o).Ok?
    ensures ScoreCandidates(me, profiles, pool[1..], o).Ok?
    ensures var r := ScoreCandidates(me, profiles, pool, o).value;
            var rest := ScoreCandidates(me, profiles, pool[1..], o).value;
            if Eligibility.Eligible(me, profiles[pool[0]], o.distance)
            then |r| == |rest| + 1 && r[0].userId == pool[0] && r[1..] == rest
            else r == rest
  {
  }

  lemma UsersCons(r: seq<Candidate>, rest: seq<Candidate>)
    requires |r| == |rest| + 1 && r[1..] == rest
    ensures Users(r) == [r[0].userId] + Users(rest)
  {
  }

  /** The test of the filter, as a predicate on user ids. */
  function EligibleIn(me: Profile, profiles: map<UserId, Profile>, o: Oracles): UserId -> bool {
    u => u in profiles && Eligibility.Eligible(me, profiles[u], o.distance)
  }

  /** The scored users are pool.filter(eligible), in pool order. */
  lemma {:induction false} ScoredUsers(me: Profile, profiles: map<UserId, Profile>, pool: seq<UserId>, o: Oracles)
    requires me.embedding.Some?
    requires forall u :: u in pool ==> u in profiles && profiles[u].embedding.Some?
    requires ScoreCandidates(me, profiles, pool, o).Ok?
    ensures Users(ScoreCandidates(me, profiles, pool, o).value) == Text.Keep(pool, EligibleIn(me, profiles, o))
  {
    if pool != [] {
      ScoredStep(me, profiles, pool, o);
      ScoredUsers(me, profiles, pool[1..], o);
      var r := ScoreCandidates(me, profiles, pool, o).value;
      var rest := ScoreCandidates(me, profiles, pool[1..], o).value;
      if Eligibility.Eligible(me, profiles[pool[0]], o.distance) {
        UsersCons(r, rest);
      }
      Text.KeepStep(pool, EligibleIn(me, profiles, o));
    }
  }

  /** No eligible pool member is dropped by the scoring step. */
  lemma ScoredComplete(me: Profile, profiles: map<UserId, Profile>, pool: seq<UserId>, o: Oracles)
    requires me.embedding.Some?
    requires forall u :: u in pool ==> u in profiles && profiles[u].embedding.Some?
    requires ScoreCandidates(me, profiles, pool, o).Ok?
    ensures forall u :: u in pool && Eligibility.Eligible(me, profiles[u], o.distance) ==>
              u in Users(ScoreCandidates(me, profiles, pool, o).value)
  {
    ScoredUsers(me, profiles, pool, o);
  }

  /** A pool without repeats gives candidates without repeats. */
  lemma ScoredUnique(me: Profile, profiles: map<UserId, Profile>, pool: seq<UserId>, o: Oracles)
    requires me.embedding.Some?
    requires forall u :: u in pool ==> u in profiles && profiles[u].embedding.Some?
    requires ScoreCandidates(me, profiles, pool, o).Ok?
    requires Sequences.Unique(pool)
    ensures Sequences.Unique(Users(ScoreCandidates(me, profiles, pool, o).value))
  {
    ScoredUsers(me, profiles, pool, o);
    Text.KeepUnique(pool, EligibleIn(me, profiles, o));
  }

  /** A row findMatches creates: PENDING, nothing liked, initiated by the
      requester, scored, and explained by the AI reply for that score. */
  ghost predicate PendingRow(m: Match, requester: UserId, me: Profile, c: Candidate, o: Oracles) {
    && m.userId == requester
    && m.matchedUserId == c.userId
    && m.score == c.score
    && Ai.GenerateExplanation(o.explanationReply(me.analysis, c.profile.analysis, c.score)) == Ok(m.explanation)
    && m.status == Pending
    && !m.userLiked
    && !m.matchedUserLiked
  }

  /** The row for one shortlisted candidate, or the throw of its explanation. */
  function NewRow(requester: UserId, me: Profile, c: Candidate, o: Oracles): (r: Result<Match>)
    ensures r.Err? <==> o.explanationReply(me.analysis, c.profile.analysis, c.score).OtherBlock?
    ensures r.Err? ==> r.error == UnexpectedResponseType
    ensures r.Ok? ==> PendingRow(r.value, requester, me, c, o)
  {
    var explanation := Ai.GenerateExplanation(o.explanationReply(me.analysis, c.profile.analysis, c.score));
    if explanation.Err? then Err(explanation.error)
    else Ok(Match(requester, c.userId, c.score, explanation.value, false, false, Pending))
  }

  /** One explanation and one PENDING row per shortlisted candidate, in
      shortlist order (Promise.all over the shortlist); one failed explanation
      rejects the whole batch. */
  function CreateMatches(requester: UserId, me: Profile, shortlist: seq<Candidate>, o: Oracles): (r: Result<seq<Match>>)
    ensures r.Err? <==> exists c :: c in shortlist && o.explanationReply(me.analysis, c.profile.analysis, c.score).OtherBlock?
    ensures r.Err? ==> r.error == UnexpectedResponseType
    ensures r.Ok? ==> |r.value| == |shortlist|
    ensures r.Ok? ==> forall i :: 0 <= i < |shortlist| ==> NewRow(requester, me, shortlist[i], o) == Ok(r.value[i])
  {
    if exists i :: 0 <= i < |shortlist| && NewRow(requester, me, shortlist[i], o).Err? then
      Err(UnexpectedResponseType)
    else
      Ok(seq(|shortlist|, i requires 0 <= i < |shortlist| => NewRow(requester, me, shortlist[i], o).value))
  }

  function MatchScore(m: Match): int {
    m.score
  }

  function Partners(ms: seq<Match>): (us: seq<UserId>)
    ensures |us| == |ms|
    ensures forall i :: 0 <= i < |ms| ==> us[i] == ms[i].matchedUserId
  {
    seq(|ms|, i requires 0 <= i < |ms| => ms[i].matchedUserId)
  }

  /** What findMatches promises of each row it creates. */
  ghost predicate Created(db: Db, requester: UserId, m: Match, o: Oracles)
    requires requester in db.profiles && db.profiles[requester].embedding.Some?
  {
    var me := db.profiles[requester];
    && m.matchedUserId in db.profiles
    && var them := db.profiles[m.matchedUserId];
    && InPool(m.matchedUserId, them, ExcludedUsers(db.matches, requester))
    && Eligibility.Eligible(me, them, o.distance)
    && PendingRow(m, requester, me, Candidate(m.matchedUserId, them, ScoreOf(me, them, o)), o)
  }

  /** An eligible member of the requester's pool. */
  ghost predicate Contender(db: Db, requester: UserId, u: UserId, o: Oracles)
    requires requester in db.profiles
  {
    && u in db.profiles
    && InPool(u, db.profiles[u], ExcludedUsers(db.matches, requester))
    && Eligibility.Eligible(db.profiles[requester], db.profiles[u], o.distance)
  }

  /** The requester has a profile with a truthy embedding. */
  predicate Complete(db: Db, requester: UserId) {
    requester in db.profiles && HasEmbedding(db.profiles[requester])
  }

  /** Some eligible pool member's vector differs in length from the requester's. */
  ghost predicate ContenderMismatch(db: Db, requester: UserId, o: Oracles)
    requires Complete(db, requester)
  {
    exists u :: Contender(db, requester, u, o) && |Vector(db.profiles[u], o)| != |Vector(db.profiles[requester], o)|
  }

  /** Some eligible pool member's explanation reply is not text. */
  ghost predicate ExplanationRefused(db: Db, requester: UserId, o: Oracles)
    requires Complete(db, requester)
  {
    var me := db.profiles[requester];
    exists u :: Contender(db, requester, u, o) &&
      o.explanationReply(me.analysis, db.profiles[u].analysis, ScoreOf(me, db.profiles[u], o)).OtherBlock?
  }

  /** The eligible members of the requester's pool. */
  ghost function Contenders(db: Db, requester: UserId, o: Oracles): set<UserId>
    requires requester in db.profiles
  {
    set u | u in db.profiles && Contender(db, requester, u, o)
  }

  /** The contenders that score strictly higher than contender u. */
  ghost function Outscoring(db: Db, requester: UserId, o: Oracles, u: UserId): set<UserId>
    requires Complete(db, requester) && Contender(db, requester, u, o)
  {
    var me := db.profiles[requester];
    set w | w in Contenders(db, requester, o) && ScoreOf(me, db.profiles[w], o) > ScoreOf(me, db.profiles[u], o)
  }

  /** Contender u can reach the shortlist: fewer contenders outscore it than
      slice(0, limit) keeps of the ranked list. */
  ghost predicate WithinCut(db: Db, requester: UserId, o: Oracles, u: UserId, limit: int)
    requires Complete(db, requester)
  {
    && Contender(db, requester, u, o)
    && |Outscoring(db, requester, o, u)| < Sorting.SliceEnd(|Contenders(db, requester, o)|, limit)
  }

  /** Some contender that can reach the shortlist has an explanation reply
      that is not text. */
  ghost predicate ShortlistRefused(db: Db, requester: UserId, o: Oracles, limit: int)
    requires Complete(db, requester)
  {
    var me := db.profiles[requester];
    exists u :: WithinCut(db, requester, o, u, limit) &&
      o.explanationReply(me.analysis, db.profiles[u].analysis, ScoreOf(me, db.profiles[u], o)).OtherBlock?
  }

  /** findMatches(userId, limit): the requester must have a profile with a
      truthy embedding; the result is the top of the eligible pool by score,
      truncated by slice(0, limit), as new PENDING rows. It throws the length
      error exactly when an eligible pool member's vector has the wrong length,
      and the explanation error only when the reply is not text for some
      eligible pool member that fewer than the kept number of others outscore. */
  method FindMatches(db: Db, requester: UserId, limit: int, o: Oracles) returns (r: Result<seq<Match>>)
    ensures requester !in db.profiles || !HasEmbedding(db.profiles[requester]) <==> r == Err(ProfileNotComplete)
    ensures r == Err(VectorLengthMismatch) <==> Complete(db, requester) && ContenderMismatch(db, requester, o)
    ensures r == Err(UnexpectedResponseType) ==> Complete(db, requester) && ExplanationRefused(db, requester, o)
    ensures r == Err(UnexpectedResponseType) ==> Complete(db, requester) && ShortlistRefused(db, requester, o, limit)
    ensures Complete(db, requester) && !ContenderMismatch(db, requester, o) && !ShortlistRefused(db, requester, o, limit) ==> r.Ok?
    ensures Complete(db, requester) && !ContenderMismatch(db, requester, o) && limit == 0 ==> r == Ok([])
    ensures r.Err? ==> r.error in {ProfileNotComplete, VectorLengthMismatch, UnexpectedResponseType}
    ensures r.Ok? ==> requester in db.profiles && HasEmbedding(db.profiles[requester])
    ensures r.Ok? ==> forall m :: m in r.value ==> Created(db, requester, m, o)
    ensures r.Ok? ==> Sorting.SortedDesc(r.value, MatchScore)
    ensures r.Ok? ==> Sequences.Unique(Partners(r.value))
    ensures r.Ok? && 0 <= limit ==> |r.value| <= limit
    ensures r.Ok? ==> |r.value| == Sorting.SliceEnd(|Contenders(db, requester, o)|, limit)
    ensures r.Ok? ==> forall u :: Contender(db, requester, u, o) && u !in Partners(r.value) ==>
              && (0 <= limit ==> |r.value| == limit)
              && forall m :: m in r.value ==> m.score >= ScoreOf(db.profiles[requester], db.profiles[u], o)
  {
    if requester !in db.profiles || !HasEmbedding(db.profiles[requester]) {
      return Err(ProfileNotComplete);
    }
    var me := db.profiles[requester];
    var excluded := ExcludedUsers(db.matches, requester);
    var pool := CandidatePool(db.profiles, excluded);
    var scored := ScoreCandidates(me, db.profiles, pool, o);
    PoolMismatch(db, requester, pool, o);
    if scored.Err? {
      return Err(scored.error);
    }
    ScoredComplete(me, db.profiles, pool, o);
    ScoredUnique(me, db.profiles, pool, o);
    var ranked := Sorting.SortDesc(scored.value, CandidateScore);
    var shortlist := Sorting.Take(ranked, limit);
    var created := CreateMatches(requester, me, shortlist, o);
    RefusalIsContender(db, requester, o, scored.value, ranked, shortlist, limit);
    RefusalWithinCut(db, requester, o, scored.value, ranked, shortlist, limit);
    if created.Err? {
      return Err(created.error);
    }
    RankingFacts(db, requester, o, scored.value, ranked, shortlist, created.value, limit);
    RankedCountsContenders(db, requester, o, scored.value, ranked);
    r := created;
  }

  /** The scoring step throws on the pool exactly when some eligible pool
      member's vector has the wrong length. */
  lemma PoolMismatch(db: Db, requester: UserId, pool: seq<UserId>, o: Oracles)
    requires Complete(db, requester)
    requires forall u :: u in pool ==> u in db.profiles && InPool(u, db.profiles[u], ExcludedUsers(db.matches, requester))
    requires forall u :: u in db.profiles && InPool(u, db.profiles[u], ExcludedUsers(db.matches, requester)) ==> u in pool
    ensures forall u :: u in pool ==> u in db.profiles && db.profiles[u].embedding.Some?
    ensures ScoreCandidates(db.profiles[requester], db.profiles, pool, o).Err? <==> ContenderMismatch(db, requester, o)
  {
    var me := db.profiles[requester];
    if u :| u in pool && Mismatch(me, db.profiles[u], o) {
      assert Contender(db, requester, u, o);
    }
    if ContenderMismatch(db, requester, o) {
      var u :| Contender(db, requester, u, o) && |Vector(db.profiles[u], o)| != |Vector(me, o)|;
      assert u in pool && Mismatch(me, db.profiles[u], o);
    }
  }

  /** Every shortlisted candidate is an eligible pool member with its stored
      profile and score, so a refused explanation on the shortlist is one for
      an eligible pool member. RefusalWithinCut sharpens this to a member that
      slice keeps; this coarser fact backs the ExplanationRefused clause. */
  lemma RefusalIsContender(db: Db, requester: UserId, o: Oracles, scored: seq<Candidate>, ranked: seq<Candidate>,
                           shortlist: seq<Candidate>, limit: int)
    requires Complete(db, requester)
    requires forall c :: c in scored ==> c.userId in db.profiles && Faithful(db.profiles[requester], db.profiles, c, o) &&
                                         InPool(c.userId, c.profile, ExcludedUsers(db.matches, requester))
    requires multiset(ranked) == multiset(scored)
    requires shortlist == Sorting.Take(ranked, limit)
    ensures CreateMatches(requester, db.profiles[requester], shortlist, o).Err? ==> ExplanationRefused(db, requester, o)
  {
    var me := db.profiles[requester];
    if CreateMatches(requester, me, shortlist, o).Err? {
      var c :| c in shortlist && o.explanationReply(me.analysis, c.profile.analysis, c.score).OtherBlock?;
      assert c in ranked;
      assert c in multiset(ranked);
      assert c in scored;
      assert Contender(db, requester, c.userId, o);
    }
  }

  /** A refused explanation on the shortlist is one for a contender that
      fewer than the kept number of contenders outscore: the ranked list
      holds each contender once, and everything ranked above a shortlisted
      candidate lies before it. */
  lemma RefusalWithinCut(db: Db, requester: UserId, o: Oracles, scored: seq<Candidate>, ranked: seq<Candidate>,
                         shortlist: seq<Candidate>, limit: int)
    requires Complete(db, requester)
    requires forall c :: c in scored ==> c.userId in db.profiles && Faithful(db.profiles[requester], db.profiles, c, o) &&
                                         InPool(c.userId, c.profile, ExcludedUsers(db.matches, requester))
    requires forall u :: Contender(db, requester, u, o) ==> u in Users(scored)
    requires Sequences.Unique(Users(scored))
    requires Sorting.SortedDesc(ranked, CandidateScore) && multiset(ranked) == multiset(scored)
    requires shortlist == Sorting.Take(ranked, limit)
    ensures CreateMatches(requester, db.profiles[requester], shortlist, o).Err? ==> ShortlistRefused(db, requester, o, limit)
  {
    var me := db.profiles[requester];
    if CreateMatches(requester, me, shortlist, o).Err? {
      var c :| c in shortlist && o.explanationReply(me.analysis, c.profile.analysis, c.score).OtherBlock?;
      var k :| 0 <= k < |shortlist| && shortlist[k] == c;
      assert c == ranked[k];
      RankedWithinCut(db, requester, o, scored, ranked, k, limit);
      assert c in multiset(ranked);
      assert c in scored;
      assert WithinCut(db, requester, o, c.userId, limit);
    }
  }

  /** Every candidate that slice(0, limit) keeps of the ranked list is a
      contender that fewer than the kept number of contenders outscore. */
  lemma RankedWithinCut(db: Db, requester: UserId, o: Oracles, scored: seq<Candidate>, ranked: seq<Candidate>,
                        k: nat, limit: int)
    requires Complete(db, requester)
    requires forall c :: c in scored ==> c.userId in db.profiles && Faithful(db.profiles[requester], db.profiles, c, o) &&
                                         InPool(c.userId, c.profile, ExcludedUsers(db.matches, requester))
    requires forall u :: Contender(db, requester, u, o) ==> u in Users(scored)
    requires Sequences.Unique(Users(scored))
    requires Sorting.SortedDesc(ranked, CandidateScore) && multiset(ranked) == multiset(scored)
    requires k < |Sorting.Take(ranked, limit)|
    ensures WithinCut(db, requester, o, ranked[k].userId, limit)
  {
    var me := db.profiles[requester];
    forall d | d in ranked
      ensures d in scored
    {
      assert d in multiset(ranked);
    }
    RankedCountsContenders(db, requester, o, scored, ranked);
    RankedAreContenders(db, requester, o, scored, ranked);
    forall j | 0 <= j < |ranked|
      ensures Contender(db, requester, ranked[j].userId, o)
      ensures ranked[j].score == ScoreOf(me, db.profiles[ranked[j].userId], o)
    {
      assert ranked[j] in ranked;
    }
    OutscoredRankBefore(db, requester, o, ranked, k);
    Sequences.ElementsCount(Users(ranked[..k]));
    Sequences.SubsetCount(Outscoring(db, requester, o, ranked[k].userId), Sequences.Elements(Users(ranked[..k])));
  }

  /** Every contender that outscores the k-th ranked candidate is ranked before it. */
  lemma OutscoredRankBefore(db: Db, requester: UserId, o: Oracles, ranked: seq<Candidate>, k: nat)
    requires Complete(db, requester)
    requires forall j :: 0 <= j < |ranked| ==>
               Contender(db, requester, ranked[j].userId, o) &&
               ranked[j].score == ScoreOf(db.profiles[requester], db.profiles[ranked[j].userId], o)
    requires Sorting.SortedDesc(ranked, CandidateScore)
    requires Contenders(db, requester, o) == Sequences.Elements(Users(ranked))
    requires k < |ranked|
    ensures Outscoring(db, requester, o, ranked[k].userId) <= Sequences.Elements(Users(ranked[..k]))
  {
    var c := ranked[k].userId;
    var above := Outscoring(db, requester, o, c);
    forall w | w in above
      ensures w in Sequences.Elements(Users(ranked))
    {
      OutscoringIsHigher(db, requester, o, c, w);
    }
    forall j | 0 <= j < |ranked| && ranked[j].userId in above
      ensures ranked[j].score > ranked[k].score
    {
      OutscoringIsHigher(db, requester, o, c, ranked[j].userId);
    }
    HigherRankedBefore(ranked, k, above);
  }

  /** A member of Outscoring(u) is a contender with a higher score than u. */
  lemma OutscoringIsHigher(db: Db, requester: UserId, o: Oracles, u: UserId, w: UserId)
    requires Complete(db, requester) && Contender(db, requester, u, o)
    requires w in Outscoring(db, requester, o, u)
    ensures w in Contenders(db, requester, o) && Contender(db, requester, w, o)
    ensures ScoreOf(db.profiles[requester], db.profiles[w], o) > ScoreOf(db.profiles[requester], db.profiles[u], o)
  {
  }

  /** In a list sorted by descending score, users that score strictly above
      the k-th entry all occur before position k. */
  lemma HigherRankedBefore(ranked: seq<Candidate>, k: nat, above: set<UserId>)
    requires Sorting.SortedDesc(ranked, CandidateScore)
    requires k < |ranked|
    requires forall w :: w in above ==> w in Sequences.Elements(Users(ranked))
    requires forall j :: 0 <= j < |ranked| && ranked[j].userId in above ==> ranked[j].score > ranked[k].score
    ensures above <= Sequences.Elements(Users(ranked[..k]))
  {
    forall w | w in above
      ensures w in Sequences.Elements(Users(ranked[..k]))
    {
      var j :| 0 <= j < |ranked| && Users(ranked)[j] == w;
      assert CandidateScore(ranked[j]) > CandidateScore(ranked[k]);
      assert Users(ranked[..k])[j] == w;
    }
  }

  /** The ranked list holds each contender exactly once, so it is as long as
      the set of contenders. */
  lemma RankedCountsContenders(db: Db, requester: UserId, o: Oracles, scored: seq<Candidate>, ranked: seq<Candidate>)
    requires Complete(db, requester)
    requires forall c :: c in scored ==> c.userId in db.profiles && Faithful(db.profiles[requester], db.profiles, c, o) &&
                                         InPool(c.userId, c.profile, ExcludedUsers(db.matches, requester))
    requires forall u :: Contender(db, requester, u, o) ==> u in Users(scored)
    requires Sequences.Unique(Users(scored))
    requires multiset(ranked) == multiset(scored)
    ensures Sequences.Unique(Users(ranked))
    ensures |ranked| == |Contenders(db, requester, o)|
  {
    RankedUsersUnique(db.profiles[requester], db.profiles, scored, ranked, o);
    RankedAreContenders(db, requester, o, scored, ranked);
    Sequences.ElementsCount(Users(ranked));
  }

  /** The users of the ranked list are exactly the contenders. */
  lemma RankedAreContenders(db: Db, requester: UserId, o: Oracles, scored: seq<Candidate>, ranked: seq<Candidate>)
    requires Complete(db, requester)
    requires forall c :: c in scored ==> c.userId in db.profiles && Faithful(db.profiles[requester], db.profiles, c, o) &&
                                         InPool(c.userId, c.profile, ExcludedUsers(db.matches, requester))
    requires forall u :: Contender(db, requester, u, o) ==> u in Users(scored)
    requires multiset(ranked) == multiset(scored)
    ensures Contenders(db, requester, o) == Sequences.Elements(Users(ranked))
  {
    forall u | u in Contenders(db, requester, o)
      ensures u in Sequences.Elements(Users(ranked))
    {
      var i :| 0 <= i < |scored| && Users(scored)[i] == u;
      assert scored[i] in multiset(ranked);
      var j :| 0 <= j < |ranked| && ranked[j] == scored[i];
      assert Users(ranked)[j] == u;
    }
    forall u | u in Sequences.Elements(Users(ranked))
      ensures u in Contenders(db, requester, o)
    {
      var j :| 0 <= j < |ranked| && Users(ranked)[j] == u;
      assert ranked[j] in multiset(scored);
      assert ranked[j] in scored;
    }
  }

  /** The facts FindMatches states about its result, from those of its steps. */
  lemma RankingFacts(db: Db, requester: UserId, o: Oracles, scored: seq<Candidate>, ranked: seq<Candidate>,
                     shortlist: seq<Candidate>, created: seq<Match>, limit: int)
    requires requester in db.profiles && HasEmbedding(db.profiles[requester])
    requires forall c :: c in scored ==> Faithful(db.profiles[requester], db.profiles, c, o) &&
                                         InPool(c.userId, c.profile, ExcludedUsers(db.matches, requester))
    requires forall u :: Contender(db, requester, u, o) ==> u in Users(scored)
    requires Sequences.Unique(Users(scored))
    requires Sorting.SortedDesc(ranked, CandidateScore) && multiset(ranked) == multiset(scored)
    requires shortlist == Sorting.Take(ranked, limit)
    requires |created| == |shortlist|
    requires forall i :: 0 <= i < |shortlist| ==> NewRow(requester, db.profiles[requester], shortlist[i], o) == Ok(created[i])
    ensures forall m :: m in created ==> Created(db, requester, m, o)
    ensures Sorting.SortedDesc(created, MatchScore)
    ensures Sequences.Unique(Partners(created))
    ensures 0 <= limit ==> |created| <= limit
    ensures forall u :: Contender(db, requester, u, o) && u !in Partners(created) ==>
              && (0 <= limit ==> |created| == limit)
              && forall m :: m in created ==> m.score >= ScoreOf(db.profiles[requester], db.profiles[u], o)
  {
    var me := db.profiles[requester];
    var n := |shortlist|;
    assert shortlist == ranked[..n];
    assert Mirrors(created, ranked) by {
      forall i | 0 <= i < n
        ensures created[i].score == ranked[i].score && created[i].matchedUserId == ranked[i].userId
      {
        assert shortlist[i] == ranked[i];
      }
    }
    assert forall c :: c in ranked ==> c in scored by {
      forall c | c in ranked
        ensures c in scored
      {
        assert c in multiset(ranked);
      }
    }
    CreatedRowsFaithful(db, requester, o, scored, ranked, n, created);
    CreatedSorted(ranked, created);
    RankedUsersUnique(me, db.profiles, scored, ranked, o);
    CreatedPartnersUnique(ranked, created);
    LeftOutContenders(db, requester, o, scored, ranked, created, limit);
  }

  /** Every eligible pool member the created rows leave out scores no higher
      than each of them, and is left out only because slice cut the list. */
  lemma LeftOutContenders(db: Db, requester: UserId, o: Oracles, scored: seq<Candidate>, ranked: seq<Candidate>,
                          created: seq<Match>, limit: int)
    requires requester in db.profiles && HasEmbedding(db.profiles[requester])
    requires forall c :: c in scored ==> Faithful(db.profiles[requester], db.profiles, c, o)
    requires forall u :: Contender(db, requester, u, o) ==> u in Users(scored)
    requires Sorting.SortedDesc(ranked, CandidateScore) && multiset(ranked) == multiset(scored)
    requires Mirrors(created, ranked)
    requires |created| == |Sorting.Take(ranked, limit)|
    ensures forall u :: Contender(db, requester, u, o) && u !in Partners(created) ==>
              && (0 <= limit ==> |created| == limit)
              && forall m :: m in created ==> m.score >= ScoreOf(db.profiles[requester], db.profiles[u], o)
  {
    forall u | Contender(db, requester, u, o) && u !in Partners(created)
      ensures 0 <= limit ==> |created| == limit
      ensures forall m :: m in created ==> m.score >= ScoreOf(db.profiles[requester], db.profiles[u], o)
    {
      var k :| 0 <= k < |scored| && Users(scored)[k] == u;
      var c := scored[k];
      assert c in scored;
      LeftOutScoresLower(c, ranked, created);
    }
  }

  /** The created rows follow the first |created| ranked candidates: same
      partner, same score. */
  ghost predicate Mirrors(created: seq<Match>, ranked: seq<Candidate>) {
    && |created| <= |ranked|
    && forall i :: 0 <= i < |created| ==>
         created[i].score == ranked[i].score && created[i].matchedUserId == ranked[i].userId
  }

  lemma CreatedRowsFaithful(db: Db, requester: UserId, o: Oracles, scored: seq<Candidate>, ranked: seq<Candidate>,
                            n: nat, created: seq<Match>)
    requires requester in db.profiles && HasEmbedding(db.profiles[requester])
    requires forall c :: c in scored ==> Faithful(db.profiles[requester], db.profiles, c, o) &&
                                         InPool(c.userId, c.profile, ExcludedUsers(db.matches, requester))
    requires forall c :: c in ranked ==> c in scored
    requires n <= |ranked| && |created| == n
    requires forall i :: 0 <= i < n ==> NewRow(requester, db.profiles[requester], ranked[..n][i], o) == Ok(created[i])
    ensures forall m :: m in created ==> Created(db, requester, m, o)
  {
    forall i | 0 <= i < n
      ensures Created(db, requester, created[i], o)
    {
      var c := ranked[i];
      assert ranked[..n][i] == c;
      assert c in scored;
      RowFaithful(db, requester, o, c, created[i]);
    }
    forall m | m in created
      ensures Created(db, requester, m, o)
    {
      var i :| 0 <= i < n && created[i] == m;
    }
  }

  /** A row built for a faithful candidate of the pool is a row findMatches promises. */
  lemma RowFaithful(db: Db, requester: UserId, o: Oracles, c: Candidate, m: Match)
    requires requester in db.profiles && HasEmbedding(db.profiles[requester])
    requires Faithful(db.profiles[requester], db.profiles, c, o)
    requires InPool(c.userId, c.profile, ExcludedUsers(db.matches, requester))
    requires NewRow(requester, db.profiles[requester], c, o) == Ok(m)
    ensures Created(db, requester, m, o)
  {
    var me := db.profiles[requester];
    assert PendingRow(m, requester, me, c, o);
    assert c == Candidate(m.matchedUserId, db.profiles[m.matchedUserId], ScoreOf(me, db.profiles[m.matchedUserId], o));
  }

  lemma CreatedSorted(ranked: seq<Candidate>, created: seq<Match>)
    requires Sorting.SortedDesc(ranked, CandidateScore)
    requires Mirrors(created, ranked)
    ensures Sorting.SortedDesc(created, MatchScore)
  {
    forall i, j | 0 <= i < j < |created|
      ensures created[i].score >= created[j].score
    {
      assert CandidateScore(ranked[i]) >= CandidateScore(ranked[j]);
    }
  }

  lemma CreatedPartnersUnique(ranked: seq<Candidate>, created: seq<Match>)
    requires Sequences.Unique(Users(ranked))
    requires Mirrors(created, ranked)
    ensures Sequences.Unique(Partners(created))
  {
    forall i, j | 0 <= i < j < |created|
      ensures Partners(created)[i] != Partners(created)[j]
    {
      assert Users(ranked)[i] != Users(ranked)[j];
    }
  }

  /** A ranked candidate left out of the created rows scores no higher than
      any created one, and it was left out only because the list was cut. */
  lemma LeftOutScoresLower(c: Candidate, ranked: seq<Candidate>, created: seq<Match>)
    requires c in multiset(ranked)
    requires Sorting.SortedDesc(ranked, CandidateScore)
    requires Mirrors(created, ranked)
    requires c.userId !in Partners(created)
    ensures |created| < |ranked|
    ensures forall m :: m in created ==> m.score >= c.score
  {
    var n := |created|;
    forall i | 0 <= i < n
      ensures ranked[i] != c
    {
      assert Partners(created)[i] == ranked[i].userId;
    }
    assert c in ranked;
    var p :| 0 <= p < |ranked| && ranked[p] == c;
    assert n <= p;
    forall m | m in created
      ensures m.score >= c.score
    {
      var i :| 0 <= i < n && created[i] == m;
      assert CandidateScore(ranked[i]) >= CandidateScore(ranked[p]);
    }
  }

  /** Candidates built for the same user are the same candidate, so the
      sorted list names every user at most once, as the pool did. */
  lemma RankedUsersUnique(me: Profile, profiles: map<UserId, Profile>, scored: seq<Candidate>,
                          ranked: seq<Candidate>, o: Oracles)
    requires me.embedding.Some?
    requires forall c :: c in scored ==> Faithful(me, profiles, c, o)
    requires Sequences.Unique(Users(scored))
    requires multiset(ranked) == multiset(scored)
    ensures Sequences.Unique(Users(ranked))
  {
    assert Sequences.Unique(scored) by {
      forall i, j | 0 <= i < j < |scored|
        ensures scored[i] != scored[j]
      {
        assert Users(scored)[i] != Users(scored)[j];
      }
    }
    Sequences.PermutationKeepsUnique(scored, ranked);
    forall i, j | 0 <= i < j < |ranked|
      ensures ranked[i].userId != ranked[j].userId
    {
      assert ranked[i] in multiset(scored);
      assert ranked[j] in multiset(scored);
    }
  }

  /** The match table invariant: no row pairs a user with themself, and no
      two rows link the same two users, in either direction. */
  ghost predicate WellFormedTable(matches: seq<Match>) {
    && (forall i :: 0 <= i < |matches| ==> matches[i].userId != matches[i].matchedUserId)
    && (forall i, j :: 0 <= i < j < |matches| ==> !Links(matches[j], matches[i].userId, matches[i].matchedUserId))
  }

  /** Appending rows from the requester to distinct users outside the
      excluded set keeps the table invariant. */
  lemma AppendKeepsTableWellFormed(matches: seq<Match>, requester: UserId, created: seq<Match>)
    requires WellFormedTable(matches)
    requires forall m :: m in created ==> m.userId == requester && m.matchedUserId !in ExcludedUsers(matches, requester)
    requires Sequences.Unique(Partners(created))
    ensures WellFormedTable(matches + created)
  {
    var t := matches + created;
    var n := |matches|;
    forall i | 0 <= i < |t|
      ensures t[i].userId != t[i].matchedUserId
    {
      if i >= n {
        assert t[i] == created[i - n];
        assert created[i - n] in created;
      }
    }
    forall i, j | 0 <= i < j < |t|
      ensures !Links(t[j], t[i].userId, t[i].matchedUserId)
    {
      if j >= n {
        var b := t[j];
        assert b == created[j - n] && b in created;
        if i < n {
          assert !Links(matches[i], requester, b.matchedUserId);
        } else {
          assert t[i] == created[i - n] && t[i] in created;
          assert Partners(created)[i - n] != Partners(created)[j - n];
        }
      }
    }
  }

  /** findMatches followed by its inserts: the created rows are appended to
      the match table; the table invariant survives any number of calls from
      either side. */
  method FindAndStore(db: Db, requester: UserId, limit: int, o: Oracles) returns (r: Result<seq<Match>>, after: Db)
    ensures requester !in db.profiles || !HasEmbedding(db.profiles[requester]) <==> r == Err(ProfileNotComplete)
    ensures r == Err(VectorLengthMismatch) <==> Complete(db, requester) && ContenderMismatch(db, requester, o)
    ensures r == Err(UnexpectedResponseType) ==> Complete(db, requester) && ExplanationRefused(db, requester, o)
    ensures r == Err(UnexpectedResponseType) ==> Complete(db, requester) && ShortlistRefused(db, requester, o, limit)
    ensures Complete(db, requester) && !ContenderMismatch(db, requester, o) && !ShortlistRefused(db, requester, o, limit) ==> r.Ok?
    ensures Complete(db, requester) && !ContenderMismatch(db, requester, o) && limit == 0 ==> r == Ok([])
    ensures r.Err? ==> r.error in {ProfileNotComplete, VectorLengthMismatch, UnexpectedResponseType}
    ensures r.Ok? ==> |r.value| == Sorting.SliceEnd(|Contenders(db, requester, o)|, limit)
    ensures r.Err? ==> after == db
    ensures r.Ok? ==> after == db.(matches := db.matches + r.value)
    ensures WellFormedTable(db.matches) ==> WellFormedTable(after.matches)
  {
    r := FindMatches(db, requester, limit, o);
    if r.Err? {
      return r, db;
    }
    if WellFormedTable(db.matches) {
      AppendKeepsTableWellFormed(db.matches, requester, r.value);
    }
    after := db.(matches := db.matches + r.value);
  }
}

=== FILE: profile_form.dfy ===
/** The client-side logic of app/components/ProfileForm.tsx that decides what
    reaches POST /api/profile: the gender-preference toggle, the step-1 gate,
    the blank-URL filter and the initial preference values. */
module ProfileForm {
  import Text
  import Sequences
  import opened Domain
  import ProfileRoute

  /** The test g => g !== v. */
  function Differs(v: string): string -> bool {
    g => g != v
  }

  /** s.filter(g => g !== v). */
  function Without(s: seq<string>, v: string): (r: seq<string>)
    ensures forall x :: x in r <==> x in s && x != v
  {
    Text.Keep(s, Differs(v))
  }

  /** In a list without duplicates, an element occurs neither before nor after its own position. */
  lemma UniqueElsewhereAbsent(s: seq<string>, k: nat)
    requires Sequences.Unique(s)
    requires k < |s|
    ensures s[k] !in s[..k] && s[k] !in s[k + 1..]
  {
    var pre, post := s[..k], s[k + 1..];
    assert forall i :: 0 <= i < |pre| ==> pre[i] == s[i];
    assert forall i :: 0 <= i < |post| ==> post[i] == s[k + 1 + i];
  }

  /** Without a duplicate, removing v deletes exactly its one position. */
  lemma RemoveOnePosition(s: seq<string>, k: nat)
    requires Sequences.Unique(s)
    requires k < |s|
    ensures Without(s, s[k]) == s[..k] + s[k + 1..]
  {
    var v := s[k];
    var pre, post := s[..k], s[k + 1..];
    assert s == pre + [v] + post;
    UniqueElsewhereAbsent(s, k);
    Text.KeepDropsOne(pre, v, post, Differs(v));
  }

  /** On a list without "any", the first filter of the toggle changes nothing,
      and removing a gender of a duplicate-free list deletes just its position. */
  lemma FilterSteps(prefs: seq<string>, v: string)
    ensures "any" !in prefs ==> Without(prefs, "any") == prefs
    ensures Sequences.Unique(prefs) ==>
      forall k :: 0 <= k < |prefs| && prefs[k] == v ==> Without(prefs, v) == prefs[..k] + prefs[k + 1..]
  {
    if "any" !in prefs {
      Text.KeepEverything(prefs, Differs("any"));
    }
    forall k | 0 <= k < |prefs| && prefs[k] == v && Sequences.Unique(prefs)
      ensures Without(prefs, v) == prefs[..k] + prefs[k + 1..]
    {
      RemoveOnePosition(prefs, k);
    }
  }

  /** toggleGenderPreference(v) applied to the current list: a new gender is
      appended at the end, a present one is cut out in place. */
  function Toggle(prefs: seq<string>, v: string): (r: seq<string>)
    ensures r != []
    ensures "any" in r ==> r == ["any"]
    ensures v == "any" ==> r == ["any"]
    ensures v != "any" ==> (v in r <==> v !in prefs)
    ensures v != "any" ==> forall x :: x != v && x != "any" ==> (x in r <==> x in prefs)
    ensures v != "any" ==> ("any" in r <==> v in prefs && forall x :: x in prefs ==> x == v || x == "any")
    ensures v != "any" && "any" !in prefs && v !in prefs ==> r == prefs + [v]
    ensures v != "any" && "any" !in prefs && Sequences.Unique(prefs) ==>
      forall k :: 0 <= k < |prefs| && prefs[k] == v ==>
        r == (if |prefs| > 1 then prefs[..k] + prefs[k + 1..] else ["any"])
  {
    if v == "any" then ["any"]
    else
      FilterSteps(prefs, v);
      var filtered := Without(prefs, "any");
      if v in filtered then
        var newPrefs := Without(filtered, v);
        assert |newPrefs| > 0 ==> newPrefs[0] in newPrefs;
        if |newPrefs| > 0 then newPrefs else ["any"]
      else filtered + [v]
  }

  /** The lists the toggle can reach from ["any"]: ["any"] itself, or a
      non-empty list of distinct genders without "any". */
  ghost predicate WellFormed(prefs: seq<string>) {
    prefs == ["any"] || (prefs != [] && "any" !in prefs && Sequences.Unique(prefs))
  }

  /** The toggle keeps a well-formed list well-formed. */
  lemma ToggleKeepsWellFormed(prefs: seq<string>, v: string)
    requires WellFormed(prefs)
    ensures WellFormed(Toggle(prefs, v))
  {
    if v != "any" {
      var filtered := Without(prefs, "any");
      if prefs == ["any"] {
        assert filtered == [] by {
          assert forall x :: x !in filtered;
        }
      } else {
        Text.KeepEverything(prefs, Differs("any"));
        Text.KeepUnique(prefs, Differs(v));
      }
    }
  }

  /** Adding a gender that is not there and toggling it again gives the list back. */
  lemma ToggleTwiceRestores(prefs: seq<string>, v: string)
    requires WellFormed(prefs)
    requires v != "any" && v !in prefs
    ensures Toggle(Toggle(prefs, v), v) == prefs
  {
    if prefs == ["any"] {
      var filtered := Without(prefs, "any");
      assert filtered == [] by {
        assert forall x :: x !in filtered;
      }
      assert Toggle(prefs, v) == [v];
      assert Without([v], "any") == [v];
      assert Without([v], v) == [];
    } else {
      Text.KeepEverything(prefs, Differs("any"));
      var once := prefs + [v];
      assert Toggle(prefs, v) == once;
      Text.KeepEverything(once, Differs("any"));
      Text.KeepAppend(prefs, [v], Differs(v));
      Text.KeepEverything(prefs, Differs(v));
      assert Without(once, v) == prefs;
    }
  }

  /** The Continue button of step 1 is enabled: a bio of at least 50
      characters and non-empty age, gender and location. */
  function StepOneEnabled(bio: string, age: string, gender: string, location: string): (ok: bool)
    ensures ok <==> |bio| >= ProfileRoute.BioMin && age != [] && gender != [] && location != []
  {
    !(bio == [] || |bio| < 50 || age == [] || gender == [] || location == [])
  }

  /** The gate enforces the schema's lower bio bound but not its upper one: a
      5001-character bio passes step 1 and is then refused by the server. */
  lemma StepOneAdmitsOverlongBio(body: ProfileRoute.Json)
    requires body.JObject?
    ensures var bio := seq(5001, _ => 'x');
            && StepOneEnabled(bio, "1", "g", "l")
            && ProfileRoute.ParseProfile(ProfileRoute.JObject(body.fields["bio" := ProfileRoute.JString(bio)])).None?
  {
  }

  /** photoUrls.filter(url => url.trim()): the URLs that are not blank, in order. */
  function NonBlankUrls(urls: seq<string>): (r: seq<string>)
    ensures forall u :: u in r <==> u in urls && !Text.IsBlank(u)
  {
    Text.Keep(urls, url => Text.Trim(url) != [])
  }

  /** All-blank URL fields submit an empty list, which leaves the stored photos alone;
      the form starts with one empty field. */
  lemma BlankUrlsKeepPhotos(urls: seq<string>, photos: map<UserId, seq<Photo>>, u: UserId)
    requires forall url :: url in urls ==> Text.IsBlank(url)
    ensures NonBlankUrls(urls) == []
    ensures ProfileRoute.ReplacePhotos(photos, u, Some(NonBlankUrls(urls))) == photos
  {
    forall url | url in urls
      ensures Text.Trim(url) == []
    {
    }
    Text.KeepNothing(urls, url => Text.Trim(url) != []);
  }

  predicate IsDigit(c: char) {
    48 <= c as int <= 57
  }

  function DigitValue(c: char): (d: nat)
    requires IsDigit(c)
    ensures d < 10
  {
    c as int - 48
  }

  function Pow10(k: nat): (p: nat)
    ensures p >= 1
  {
    if k == 0 then 1 else 10 * Pow10(k - 1)
  }

  /** The value of a string of decimal digits, as parseInt reads it: below
      ten to the power of its length, and its last digit is the units digit. */
  function DecimalValue(s: string): (n: nat)
    requires forall k :: 0 <= k < |s| ==> IsDigit(s[k])
    ensures n < Pow10(|s|)
    ensures |s| > 0 ==> n % 10 == DigitValue(s[|s| - 1])
  {
    if s == [] then 0
    else DecimalValue(s[..|s| - 1]) * 10 + DigitValue(s[|s| - 1])
  }

  function DigitChar(d: nat): (c: char)
    requires d < 10
    ensures IsDigit(c) && DigitValue(c) == d
  {
    (48 + d) as char
  }

  /** The decimal digits of n, most significant first and without a leading
      zero; DecimalValue reads them back as n. */
  function DecimalText(n: nat): (s: string)
    ensures |s| > 0 && forall k :: 0 <= k < |s| ==> IsDigit(s[k])
    ensures |s| > 1 ==> s[0] != '0'
    ensures DecimalValue(s) == n
    decreases n
  {
    if n < 10 then [DigitChar(n)]
    else
      var t := DecimalText(n / 10);
      var s := t + [DigitChar(n % 10)];
      assert s[..|s| - 1] == t && s[0] == t[0];
      s
  }

  /** The initial values of the preference fields. */
  const DefaultAgeMin: string := "18"
  const DefaultAgeMax: string := "99"
  const DefaultMaxDistance: string := "50"
  const DefaultGenderPreference: seq<string> := ["any"]

  /** Submitting the untouched preference fields passes the schema's
      preference checks, and the initial gender list is well-formed. */
  lemma DefaultsAccepted()
    ensures DefaultAgeMin == DecimalText(18) && DefaultAgeMax == DecimalText(99) && DefaultMaxDistance == DecimalText(50)
    ensures DecimalValue(DefaultAgeMin) == 18
    ensures DecimalValue(DefaultAgeMax) == 99
    ensures DecimalValue(DefaultMaxDistance) == 50
    ensures ProfileRoute.PrefsConform(ProfileRoute.JObject(map[
              "ageMin" := ProfileRoute.JNumber(DecimalValue(DefaultAgeMin) as real),
              "ageMax" := ProfileRoute.JNumber(DecimalValue(DefaultAgeMax) as real),
              "maxDistance" := ProfileRoute.JNumber(DecimalValue(DefaultMaxDistance) as real),
              "genderPreference" := ProfileRoute.JArray([ProfileRoute.JString("any")]),
              "dealbreakers" := ProfileRoute.JArray([])]))
    ensures WellFormed(DefaultGenderPreference)
  {
    assert DecimalValue("1") == 1;
    assert DecimalValue("9") == 9;
    assert DecimalValue("5") == 5;
    assert DefaultAgeMin[..1] == "1";
    assert DefaultAgeMax[..1] == "9";
    assert DefaultMaxDistance[..1] == "5";
  }
}

=== FILE: profile_route.dfy ===
/** POST /api/profile (app/api/profile/route.ts): the zod schema as a parser
    of the JSON body, the two AI steps, the upsert of the profile row with the
    embedding stored as "[n1,n2,...]", and the replacement of the photo rows.
    Authentication is an input (the session's user id, if any). */
module ProfileRoute {
  import opened Domain
  import Text
  import Scoring
  import Ai
  import Matching

  /** A JSON request body. */
  datatype Json =
    | JNull
    | JBool(b: bool)
    | JNumber(n: real)
    | JString(s: string)
    | JArray(items: seq<Json>)
    | JObject(fields: map<string, Json>)

  const BioMin: nat := 50
  const BioMax: nat := 5000
  const AgeLow: real := 18.0
  const AgeHigh: real := 100.0
  const MinDistance: real := 1.0

  /** The body once the schema accepted it. */
  datatype ProfileInput = ProfileInput(
    bio: string,
    age: real,
    gender: string,
    location: string,
    latitude: Option<real>,
    longitude: Option<real>,
    prefs: Prefs,
    photoUrls: Option<seq<string>>)

  function Field(f: map<string, Json>, key: string): Option<Json> {
    if key in f then Some(f[key]) else None
  }

  /** z.string(), with optional length bounds. */
  function Str(j: Json): Option<string> {
    if j.JString? then Some(j.s) else None
  }

  /** z.number(), with inclusive bounds where given. */
  function NumAtLeast(j: Json, lo: real): Option<real> {
    if j.JNumber? && j.n >= lo then Some(j.n) else None
  }

  function NumAtMost(j: Json, hi: real): Option<real> {
    if j.JNumber? && j.n <= hi then Some(j.n) else None
  }

  function NumIn(j: Json, lo: real, hi: real): Option<real> {
    if j.JNumber? && lo <= j.n <= hi then Some(j.n) else None
  }

  /** ss are the strings of the JSON array j, one per item, in order. */
  predicate Carries(j: Json, ss: seq<string>) {
    j.JArray? && |ss| == |j.items| && forall k :: 0 <= k < |ss| ==> j.items[k] == JString(ss[k])
  }

  /** z.array(z.string()): accepts exactly the arrays of strings, and reads their strings in order. */
  function Strs(j: Json): (r: Option<seq<string>>)
    ensures r.Some? <==> IsStringArray(j)
    ensures r.Some? ==> Carries(j, r.value)
  {
    if j.JArray? && forall k :: 0 <= k < |j.items| ==> j.items[k].JString? then
      Some(seq(|j.items|, k requires 0 <= k < |j.items| && j.items[k].JString? => j.items[k].s))
    else None
  }

  /** z.number().optional(): an absent key is undefined; a present one must be a number. */
  function OptionalNum(f: map<string, Json>, key: string): Option<Option<real>> {
    if key !in f then Some(None)
    else if f[key].JNumber? then Some(Some(f[key].n))
    else None
  }

  function OptionalStrs(f: map<string, Json>, key: string): Option<Option<seq<string>>> {
    if key !in f then Some(None)
    else
      var urls :- Strs(f[key]);
      Some(Some(urls))
  }

  /** The preferences object of the schema. */
  function ParsePrefs(j: Json): Option<Prefs> {
    if !j.JObject? then None
    else
      var f := j.fields;
      var ageMinJ :- Field(f, "ageMin");
      var ageMin :- NumAtLeast(ageMinJ, AgeLow);
      var ageMaxJ :- Field(f, "ageMax");
      var ageMax :- NumAtMost(ageMaxJ, AgeHigh);
      var distanceJ :- Field(f, "maxDistance");
      var maxDistance :- NumAtLeast(distanceJ, MinDistance);
      var genderJ :- Field(f, "genderPreference");
      var genderPreference :- Strs(genderJ);
      var dealbreakersJ :- Field(f, "dealbreakers");
      var dealbreakers :- Strs(dealbreakersJ);
      Some(Prefs(ageMin, ageMax, maxDistance, genderPreference, dealbreakers))
  }

  predicate IsStringArray(j: Json) {
    j.JArray? && forall k :: 0 <= k < |j.items| ==> j.items[k].JString?
  }

  /** The bodies the schema accepts, field by field. */
  predicate PrefsConform(j: Json) {
    && j.JObject?
    && var f := j.fields;
    && "ageMin" in f && f["ageMin"].JNumber? && f["ageMin"].n >= 18.0
    && "ageMax" in f && f["ageMax"].JNumber? && f["ageMax"].n <= 100.0
    && "maxDistance" in f && f["maxDistance"].JNumber? && f["maxDistance"].n >= 1.0
    && "genderPreference" in f && IsStringArray(f["genderPreference"])
    && "dealbreakers" in f && IsStringArray(f["dealbreakers"])
  }

  predicate Conforms(body: Json) {
    && body.JObject?
    && var f := body.fields;
    && "bio" in f && f["bio"].JString? && 50 <= |f["bio"].s| <= 5000
    && "age" in f && f["age"].JNumber? && 18.0 <= f["age"].n <= 100.0
    && "gender" in f && f["gender"].JString?
    && "location" in f && f["location"].JString?
    && ("latitude" in f ==> f["latitude"].JNumber?)
    && ("longitude" in f ==> f["longitude"].JNumber?)
    && "preferences" in f && PrefsConform(f["preferences"])
    && ("photoUrls" in f ==> IsStringArray(f["photoUrls"]))
  }

  /** profileSchema.parse: accepts exactly the conforming bodies, and then
      carries their values over unchanged. */
  function ParseProfile(body: Json): (r: Option<ProfileInput>)
    ensures r.Some? <==> Conforms(body)
    ensures r.Some? ==>
      var f := body.fields;
      && r.value.bio == f["bio"].s
      && r.value.age == f["age"].n
      && r.value.gender == f["gender"].s
      && r.value.location == f["location"].s
      && r.value.latitude == (if "latitude" in f then Some(f["latitude"].n) else None)
      && r.value.longitude == (if "longitude" in f then Some(f["longitude"].n) else None)
      && r.value.prefs.ageMin == f["preferences"].fields["ageMin"].n
      && r.value.prefs.ageMax == f["preferences"].fields["ageMax"].n
      && r.value.prefs.maxDistance == f["preferences"].fields["maxDistance"].n
      && Carries(f["preferences"].fields["genderPreference"], r.value.prefs.genderPreference)
      && Carries(f["preferences"].fields["dealbreakers"], r.value.prefs.dealbreakers)
      && (r.value.photoUrls.Some? <==> "photoUrls" in f)
      && ("photoUrls" in f ==> Carries(f["photoUrls"], r.value.photoUrls.value))
  {
    if !body.JObject? then None
    else
      var f := body.fields;
      var bioJ :- Field(f, "bio");
      var bio :- Str(bioJ);
      if !(BioMin <= |bio| <= BioMax) then None
      else
        var ageJ :- Field(f, "age");
        var age :- NumIn(ageJ, AgeLow, AgeHigh);
        var genderJ :- Field(f, "gender");
        var gender :- Str(genderJ);
        var locationJ :- Field(f, "location");
        var location :- Str(locationJ);
        var latitude :- OptionalNum(f, "latitude");
        var longitude :- OptionalNum(f, "longitude");
        var prefsJ :- Field(f, "preferences");
        var prefs :- ParsePrefs(prefsJ);
        var photoUrls :- OptionalStrs(f, "photoUrls");
        Some(ProfileInput(bio, age, gender, location, latitude, longitude, prefs, photoUrls))
  }

  /** The schema does not relate ageMin to ageMax: an empty age range is accepted. */
  lemma InvertedAgeRangeAccepted()
    ensures var prefs := JObject(map[
              "ageMin" := JNumber(60.0), "ageMax" := JNumber(30.0), "maxDistance" := JNumber(1.0),
              "genderPreference" := JArray([]), "dealbreakers" := JArray([])]);
            var body := JObject(map[
              "bio" := JString(seq(50, _ => 'x')), "age" := JNumber(18.0),
              "gender" := JString(""), "location" := JString(""), "preferences" := prefs]);
            && ParseProfile(body).Some?
            && ParseProfile(body).value.prefs.ageMin > ParseProfile(body).value.prefs.ageMax
  {
  }

  /** Against an otherwise accepted body, a bio is accepted iff its length is in [50, 5000]. */
  lemma BioBounds(body: Json, bio: string)
    requires Conforms(body)
    ensures ParseProfile(JObject(body.fields["bio" := JString(bio)])).Some? <==> 50 <= |bio| <= 5000
  {
  }

  /** Against an otherwise accepted body, an age is accepted iff it is in [18, 100]. */
  lemma AgeBounds(body: Json, age: real)
    requires Conforms(body)
    ensures ParseProfile(JObject(body.fields["age" := JNumber(age)])).Some? <==> 18.0 <= age <= 100.0
  {
  }

  /** The text the embedding is generated from: the bio, a blank line, and the analysis JSON. */
  function EmbeddingText(bio: string, analysis: Analysis): (text: string)
    ensures |bio| <= |text| && text[..|bio|] == bio
    ensures |analysis| <= |text| && text[|text| - |analysis|..] == analysis
    ensures |text| == |bio| + |analysis| + 12
  {
    bio + "\n\nAnalysis: " + analysis
  }

  /** The text of each entry of v, in order. */
  function NumberTexts(v: seq<real>, formatNumber: real -> string): (texts: seq<string>)
    ensures |texts| == |v|
  {
    seq(|v|, i requires 0 <= i < |v| => formatNumber(v[i]))
  }

  /** Number text never contains a comma or a bracket. */
  ghost predicate PlainNumberText(formatNumber: real -> string) {
    forall x :: ',' !in formatNumber(x) && Text.NoBrackets(formatNumber(x))
  }

  /** With plain number text, no entry's text holds a comma or a bracket. */
  lemma PlainTexts(v: seq<real>, formatNumber: real -> string)
    ensures PlainNumberText(formatNumber) ==>
              forall k :: 0 <= k < |v| ==>
                ',' !in NumberTexts(v, formatNumber)[k] && Text.NoBrackets(NumberTexts(v, formatNumber)[k])
  {
    if PlainNumberText(formatNumber) {
      assert forall x :: ',' !in formatNumber(x) && Text.NoBrackets(formatNumber(x));
      forall k | 0 <= k < |v|
        ensures ',' !in NumberTexts(v, formatNumber)[k] && Text.NoBrackets(NumberTexts(v, formatNumber)[k])
      {
        assert NumberTexts(v, formatNumber)[k] == formatNumber(v[k]);
      }
    }
  }

  lemma {:induction false} JoinKeepsNoBrackets(parts: seq<string>, sep: char)
    requires !Text.IsBracket(sep)
    ensures (forall k :: 0 <= k < |parts| ==> Text.NoBrackets(parts[k])) ==> Text.NoBrackets(Text.Join(parts, sep))
  {
    if |parts| > 1 {
      JoinKeepsNoBrackets(parts[1..], sep);
      assert forall k :: 0 <= k < |parts| - 1 ==> parts[1..][k] == parts[k + 1];
    }
  }

  /** The stored embedding: "[" + the entries' texts joined by "," + "]". With
      plain number text the brackets occur only at the ends and there is one
      comma between each pair of neighbouring entries. */
  function SerializeEmbedding(v: seq<real>, formatNumber: real -> string): (s: string)
    ensures |s| >= 2 && s[0] == '[' && s[|s| - 1] == ']'
    ensures s[1..|s| - 1] == Text.Join(NumberTexts(v, formatNumber), ',')
    ensures PlainNumberText(formatNumber) ==> Text.NoBrackets(s[1..|s| - 1])
    ensures PlainNumberText(formatNumber) ==> Text.Occurrences(s, ',') == (if v == [] then 0 else |v| - 1)
  {
    var inner := Text.Join(NumberTexts(v, formatNumber), ',');
    PlainTexts(v, formatNumber);
    JoinKeepsNoBrackets(NumberTexts(v, formatNumber), ',');
    var s := "[" + inner + "]";
    assert s[1..|s| - 1] == inner;
    assert multiset(s) == multiset("[") + multiset(inner) + multiset("]");
    s
  }

  /** Reading back a stored embedding gives the same pieces of text, hence
      the same number of entries, for any non-empty vector. */
  lemma EmbeddingRoundTrip(v: seq<real>, formatNumber: real -> string, parseNumber: string -> real)
    requires |v| > 0
    requires PlainNumberText(formatNumber)
    ensures Text.Split(Text.RemoveBrackets(SerializeEmbedding(v, formatNumber)), ',') == NumberTexts(v, formatNumber)
    ensures |Scoring.ParseEmbedding(SerializeEmbedding(v, formatNumber), parseNumber)| == |v|
  {
    var texts := NumberTexts(v, formatNumber);
    PlainTexts(v, formatNumber);
    JoinKeepsNoBrackets(texts, ',');
    Text.Unbracket(Text.Join(texts, ','));
    Text.SplitJoin(texts, ',');
  }

  /** The row holds every submitted field except the coordinates, the
      analysis and the stored embedding, and is marked complete. */
  predicate Written(p: Profile, input: ProfileInput, analysis: Analysis, stored: string) {
    && p.bio == input.bio && p.age == input.age && p.gender == input.gender && p.location == input.location
    && p.prefs == input.prefs && p.analysis == analysis && p.embedding == Some(stored) && p.isComplete
  }

  /** The upsert's create branch; isActive takes its default, true. */
  function Create(input: ProfileInput, analysis: Analysis, stored: string): (p: Profile)
    ensures Written(p, input, analysis, stored)
    ensures p.isActive
    ensures p.latitude == input.latitude && p.longitude == input.longitude
  {
    Profile(input.bio, input.age, input.gender, input.location, input.latitude, input.longitude,
            input.prefs, analysis, Some(stored), true, true)
  }

  /** The upsert's update branch: an omitted (undefined) coordinate leaves the
      stored one in place; isActive is not written. */
  function Update(existing: Profile, input: ProfileInput, analysis: Analysis, stored: string): (p: Profile)
    ensures Written(p, input, analysis, stored)
    ensures p.isActive == existing.isActive
    ensures p.latitude == (if input.latitude.Some? then input.latitude else existing.latitude)
    ensures p.longitude == (if input.longitude.Some? then input.longitude else existing.longitude)
  {
    existing.(bio := input.bio, age := input.age, gender := input.gender, location := input.location,
              latitude := if input.latitude.Some? then input.latitude else existing.latitude,
              longitude := if input.longitude.Some? then input.longitude else existing.longitude,
              prefs := input.prefs, analysis := analysis, embedding := Some(stored), isComplete := true)
  }

  /** Both branches write the same values, apart from isActive and an omitted coordinate. */
  lemma UpsertBranchesAgree(existing: Profile, input: ProfileInput, analysis: Analysis, stored: string)
    ensures var created := Create(input, analysis, stored);
            var updated := Update(existing, input, analysis, stored);
            && updated.isComplete && created.isComplete
            && updated.(isActive := true, latitude := input.latitude, longitude := input.longitude) == created
  {
  }

  /** The row the upsert leaves for user u: the submitted fields, the analysis
      and the stored embedding, marked complete; a new row is active, an
      existing one keeps its isActive and any coordinate the body omits. */
  function Upsert(profiles: map<UserId, Profile>, u: UserId, input: ProfileInput, analysis: Analysis, stored: string): (p: Profile)
    ensures p.bio == input.bio && p.age == input.age && p.gender == input.gender && p.location == input.location
    ensures p.prefs == input.prefs && p.analysis == analysis && p.embedding == Some(stored) && p.isComplete
    ensures p.isActive == (u !in profiles || profiles[u].isActive)
    ensures input.latitude.Some? ==> p.latitude == input.latitude
    ensures input.latitude.None? ==> p.latitude == (if u in profiles then profiles[u].latitude else None)
    ensures input.longitude.Some? ==> p.longitude == input.longitude
    ensures input.longitude.None? ==> p.longitude == (if u in profiles then profiles[u].longitude else None)
  {
    if u in profiles then Update(profiles[u], input, analysis, stored) else Create(input, analysis, stored)
  }

  /** A non-empty photoUrls list replaces all photo rows, order = index; a
      missing or empty list leaves them alone. */
  function ReplacePhotos(photos: map<UserId, seq<Photo>>, u: UserId, urls: Option<seq<string>>): (r: map<UserId, seq<Photo>>)
    ensures urls.None? || urls.value == [] ==> r == photos
    ensures urls.Some? && urls.value != [] ==>
      && r.Keys == photos.Keys + {u}
      && (forall w :: w in photos && w != u ==> r[w] == photos[w])
      && |r[u]| == |urls.value|
      && (forall i :: 0 <= i < |urls.value| ==> r[u][i].url == urls.value[i] && r[u][i].order == i)
  {
    if urls.Some? && |urls.value| > 0 then
      photos[u := seq(|urls.value|, i requires 0 <= i < |urls.value| => Photo(urls.value[i], i))]
    else photos
  }

  /** The reply of POST /api/profile. */
  datatype Reply = Saved(profile: Profile) | NotAuthenticated | InvalidInput | ServerError {
    function Status(): int {
      match this
      case Saved(_) => 200
      case NotAuthenticated => 401
      case InvalidInput => 400
      case ServerError => 500
    }
  }

  /** The AI replies for a bio let both AI steps through: a text analysis
      reply with a brace span that JSON.parse accepts, then a text embedding
      reply for the bio and that analysis. */
  predicate AiSucceeds(bio: string, o: Oracles) {
    && o.analysisReply(bio).TextBlock?
    && Ai.ExtractJson(o.analysisReply(bio).text).Ok?
    && o.parseJson(Ai.ExtractJson(o.analysisReply(bio).text).value).Some?
    && o.embeddingReply(EmbeddingText(bio, o.parseJson(Ai.ExtractJson(o.analysisReply(bio).text).value).value)).TextBlock?
  }

  /** What the two AI steps give the route: the analysis and the embedding. */
  datatype Prepared = Prepared(analysis: Analysis, embedding: seq<real>)

  /** analyzeProfile(bio), then generateEmbedding of the bio and the analysis. */
  function Prepare(bio: string, o: Oracles): (r: Result<Prepared>)
    ensures r.Ok? <==> AiSucceeds(bio, o)
    ensures r.Err? ==> r.error in {UnexpectedResponseType, UnparsableAiResponse, MalformedJson}
    ensures r.Ok? ==>
      && o.parseJson(Ai.ExtractJson(o.analysisReply(bio).text).value) == Some(r.value.analysis)
      && |r.value.embedding| == Ai.EmbeddingDim
      && r.value.embedding == Ai.Fit(Ai.ParseNumbers(o.embeddingReply(EmbeddingText(bio, r.value.analysis)).text, o.parseNumber))
  {
    var analysis :- Ai.AnalyzeProfile(o.analysisReply(bio), o.parseJson);
    var embedding :- Ai.GenerateEmbedding(o.embeddingReply(EmbeddingText(bio, analysis)), o.parseNumber);
    Ok(Prepared(analysis, embedding))
  }

  /** POST /api/profile. The body is None when it is not JSON: request.json()
      then throws an error that is not a ZodError, which answers 500.
      Reading the body, validation and both AI steps precede every write, so
      every failure they cause leaves the store as it was. */
  function Post(db: Db, session: Option<UserId>, body: Option<Json>, o: Oracles): (out: (Reply, Db))
    ensures session.None? ==> out == (NotAuthenticated, db)
    ensures session.Some? && body.None? ==> out == (ServerError, db)
    ensures session.Some? && body.Some? && !Conforms(body.value) ==> out == (InvalidInput, db)
    ensures !out.0.Saved? ==> out.1 == db
    ensures out.0.Saved? <==> session.Some? && body.Some? && Conforms(body.value) && AiSucceeds(body.value.fields["bio"].s, o)
    ensures out.0 == ServerError <==>
              session.Some? && (body.None? || (Conforms(body.value) && !AiSucceeds(body.value.fields["bio"].s, o)))
    ensures out.0.Saved? ==>
      && var u := session.value;
      && var input := ParseProfile(body.value).value;
      && var prepared := Prepare(input.bio, o).value;
      && out.0.profile == Upsert(db.profiles, u, input, prepared.analysis, SerializeEmbedding(prepared.embedding, o.formatNumber))
      && out.1 == db.(profiles := db.profiles[u := out.0.profile], photos := ReplacePhotos(db.photos, u, input.photoUrls))
    ensures out.0.Saved? ==>
      && out.1.matches == db.matches
      && out.0.profile.isComplete
      && out.0.profile.embedding.Some?
      && out.0.profile.bio == body.value.fields["bio"].s
      && out.0.profile.age == body.value.fields["age"].n
  {
    match session
    case None => (NotAuthenticated, db)
    case Some(u) =>
      match body
      case None => (ServerError, db)
      case Some(json) =>
        match ParseProfile(json)
        case None => (InvalidInput, db)
        case Some(input) =>
          match Prepare(input.bio, o)
          case Err(_) => (ServerError, db)
          case Ok(prepared) =>
            var stored := SerializeEmbedding(prepared.embedding, o.formatNumber);
            var profile := Upsert(db.profiles, u, input, prepared.analysis, stored);
            var photos := ReplacePhotos(db.photos, u, input.photoUrls);
            (Saved(profile), db.(profiles := db.profiles[u := profile], photos := photos))
  }

  /** Every stored embedding reads back with EmbeddingDim entries. */
  ghost predicate UniformDimension(profiles: map<UserId, Profile>, parseNumber: string -> real) {
    forall u :: u in profiles && profiles[u].embedding.Some? ==>
      |Scoring.ParseEmbedding(profiles[u].embedding.value, parseNumber)| == Ai.EmbeddingDim
  }

  /** A saved profile's embedding reads back with EmbeddingDim entries, so
      profiles written by this route never trip the length guard of cosineSimilarity. */
  lemma PostKeepsUniformDimension(db: Db, session: Option<UserId>, body: Option<Json>, o: Oracles)
    requires PlainNumberText(o.formatNumber)
    requires UniformDimension(db.profiles, o.parseNumber)
    ensures UniformDimension(Post(db, session, body, o).1.profiles, o.parseNumber)
  {
    var out := Post(db, session, body, o);
    if out.0.Saved? {
      var prepared := Prepare(ParseProfile(body.value).value.bio, o).value;
      EmbeddingRoundTrip(prepared.embedding, o.formatNumber, o.parseNumber);
    }
  }

  /** With every stored embedding of EmbeddingDim entries, scoring any pool of
      stored profiles never hits the length guard of cosineSimilarity. */
  lemma {:induction false} UniformDimensionScores(me: Profile, profiles: map<UserId, Profile>, pool: seq<UserId>, o: Oracles)
    requires UniformDimension(profiles, o.parseNumber)
    requires me in profiles.Values && me.embedding.Some?
    requires forall u :: u in pool ==> u in profiles && profiles[u].embedding.Some?
    ensures Matching.ScoreCandidates(me, profiles, pool, o).Ok?
  {
    forall u | u in pool
      ensures !Matching.Mismatch(me, profiles[u], o)
    {
      assert |Matching.Vector(profiles[u], o)| == Ai.EmbeddingDim;
      var w :| w in profiles && profiles[w] == me;
      assert |Matching.Vector(me, o)| == Ai.EmbeddingDim;
    }
  }
}

=== FILE: scoring.dfy ===
/** Similarity scoring of lib/matching.ts: the stored-embedding parser, the
    length guard of cosineSimilarity and the 0..100 score mapping. The cosine
    arithmetic itself is a floating-point collaborator (Oracles.similarity). */
module Scoring {
  import opened Domain
  import Text

  /** Math.round on a finite number: the nearest integer, halves rounded up. */
  function Round(x: real): (n: int)
    ensures n as real - 0.5 <= x < n as real + 0.5
  {
    (x + 0.5).Floor
  }

  /** The score of a similarity: (-1..1) rescaled to (0..100), then rounded. */
  function ToScore(similarity: real): (score: int)
    ensures -1.0 <= similarity <= 1.0 ==> 0 <= score <= 100
  {
    Round((similarity + 1.0) / 2.0 * 100.0)
  }

  /** A higher similarity never gives a lower score. */
  lemma ToScoreMonotone(s1: real, s2: real)
    requires s1 <= s2
    ensures ToScore(s1) <= ToScore(s2)
  {
    var x1 := (s1 + 1.0) / 2.0 * 100.0;
    var x2 := (s2 + 1.0) / 2.0 * 100.0;
    assert x1 <= x2;
  }

  /** Opposite, orthogonal and identical vectors score 0, 50 and 100. */
  lemma ToScoreLandmarks()
    ensures ToScore(-1.0) == 0
    ensures ToScore(0.0) == 50
    ensures ToScore(1.0) == 100
  {
  }

  /** parseEmbedding on the stored text: every bracket deleted, the rest split
      on ',', each piece through parseFloat; one number per comma plus one. */
  function ParseEmbedding(stored: string, parseNumber: string -> real): (v: seq<real>)
    ensures |v| == Text.Occurrences(stored, ',') + 1
  {
    var pieces := Text.Split(Text.RemoveBrackets(stored), ',');
    Text.RemoveBracketsCounts(stored, ',');
    seq(|pieces|, i requires 0 <= i < |pieces| => parseNumber(pieces[i]))
  }

  /** cosineSimilarity: vectors of different lengths throw; equal-length
      vectors get the collaborator's value. */
  function CosineSimilarity(a: seq<real>, b: seq<real>, similarity: (seq<real>, seq<real>) -> real): (r: Result<real>)
    ensures r.Err? <==> |a| != |b|
    ensures r.Err? ==> r.error == VectorLengthMismatch
    ensures r.Ok? ==> r.value == similarity(a, b)
  {
    if |a| != |b| then Err(VectorLengthMismatch) else Ok(similarity(a, b))
  }
}

=== FILE: sequences.dfy ===
/** Sequences without repeated elements: the shape of the candidate pool,
    of the ranked shortlist and of the gender-preference list. */
module Sequences {

  /** No element occurs twice. */
  ghost predicate Unique<T>(s: seq<T>) {
    forall i, j :: 0 <= i < j < |s| ==> s[i] != s[j]
  }

  lemma {:induction false} UniqueCountsOnce<T>(s: seq<T>, x: T)
    requires Unique(s)
    ensures multiset(s)[x] <= 1
  {
    if s != [] {
      var init := s[..|s| - 1];
      var last := s[|s| - 1];
      assert Unique(init);
      UniqueCountsOnce(init, x);
      assert s == init + [last];
      assert forall k :: 0 <= k < |init| ==> init[k] != last;
      assert last !in init;
    }
  }

  lemma RepeatCountsTwice<T>(t: seq<T>, i: nat, j: nat)
    requires i < j < |t|
    ensures t[i] == t[j] ==> multiset(t)[t[i]] >= 2
  {
    assert t == t[..j] + t[j..];
    assert t[..j][i] == t[i];
    assert t[j..][0] == t[j];
    assert t[i] in multiset(t[..j]);
    assert t[j] in multiset(t[j..]);
  }

  /** A permutation of a duplicate-free sequence is duplicate-free. */
  lemma PermutationKeepsUnique<T>(s: seq<T>, t: seq<T>)
    requires Unique(s)
    requires multiset(s) == multiset(t)
    ensures Unique(t)
  {
    forall i, j | 0 <= i < j < |t|
      ensures t[i] != t[j]
    {
      UniqueCountsOnce(s, t[i]);
      RepeatCountsTwice(t, i, j);
    }
  }

  /** The head of a duplicate-free sequence does not occur in its tail. */
  lemma UniqueHead<T>(s: seq<T>)
    requires Unique(s) && s != []
    ensures s[0] !in s[1..]
  {
    forall k | 0 <= k < |s| - 1
      ensures s[1..][k] != s[0]
    {
      assert s[1..][k] == s[k + 1];
    }
  }

  /** Putting a new element in front keeps a sequence duplicate-free. */
  lemma ConsKeepsUnique<T>(x: T, s: seq<T>)
    requires Unique(s) && x !in s
    ensures Unique([x] + s)
  {
    forall i, j | 0 <= i < j < |s| + 1
      ensures ([x] + s)[i] != ([x] + s)[j]
    {
      assert ([x] + s)[j] == s[j - 1];
      if i > 0 {
        assert ([x] + s)[i] == s[i - 1];
      }
    }
  }

  /** The elements of s, as a set. */
  ghost function Elements<T>(s: seq<T>): set<T> {
    set x | x in s
  }

  /** A sequence has at most as many distinct elements as entries, and
      exactly as many when no element occurs twice. */
  lemma {:induction false} ElementsCount<T>(s: seq<T>)
    ensures |Elements(s)| <= |s|
    ensures Unique(s) ==> |Elements(s)| == |s|
  {
    if s != [] {
      ElementsCount(s[1..]);
      assert Elements(s) == {s[0]} + Elements(s[1..]);
      if Unique(s) {
        UniqueHead(s);
        assert Unique(s[1..]) by {
          assert forall k :: 0 <= k < |s| - 1 ==> s[1..][k] == s[k + 1];
        }
      }
    }
  }

  /** A subset has at most as many elements. */
  lemma SubsetCount<T>(a: set<T>, b: set<T>)
    requires a <= b
    ensures |a| <= |b|
  {
    assert b == a + (b - a);
  }
}

=== FILE: sorting.dfy ===
/** Ordering by a descending integer key and Array.prototype.slice(0, end):
    the sort and truncation steps of the ranking, and the score ordering of
    the match listing. No order among equal keys is promised. */
module Sorting {

  predicate SortedDesc<T>(s: seq<T>, key: T -> int) {
    forall i, j :: 0 <= i < j < |s| ==> key(s[i]) >= key(s[j])
  }

  /** x placed after every element of s whose key is at least x's. */
  function Insert<T>(x: T, s: seq<T>, key: T -> int): (r: seq<T>)
    requires SortedDesc(s, key)
    ensures SortedDesc(r, key)
    ensures multiset(r) == multiset(s) + multiset{x}
    ensures |r| == |s| + 1 && (r[0] == x || (s != [] && r[0] == s[0]))
  {
    if s == [] || key(x) > key(s[0]) then [x] + s
    else
      var tail := Insert(x, s[1..], key);
      assert s == [s[0]] + s[1..];
      assert key(s[0]) >= key(tail[0]);
      [s[0]] + tail
  }

  /** A permutation of s in non-increasing key order. */
  function SortDesc<T>(s: seq<T>, key: T -> int): (r: seq<T>)
    ensures SortedDesc(r, key)
    ensures multiset(r) == multiset(s)
  {
    if s == [] then []
    else
      var init := s[..|s| - 1];
      assert s == init + [s[|s| - 1]];
      Insert(s[|s| - 1], SortDesc(init, key), key)
  }

  /** The end index that Array.prototype.slice(0, end) uses on a sequence of
      length len: a negative end counts back from the length. */
  function SliceEnd(len: nat, end: int): (k: nat)
    ensures k <= len
    ensures 0 <= end ==> k == (if end < len then end else len)
    ensures end < 0 ==> k + (-end) == len || (k == 0 && len < -end)
  {
    if end < 0 then (if len + end < 0 then 0 else len + end)
    else if end < len then end
    else len
  }

  /** s.slice(0, end). */
  function Take<T>(s: seq<T>, end: int): (r: seq<T>)
    ensures |r| <= |s|
    ensures r == s[..|r|]
    ensures |r| == SliceEnd(|s|, end)
    ensures 0 <= end ==> |r| == (if end < |s| then end else |s|)
  {
    s[..SliceEnd(|s|, end)]
  }

  /** A prefix of a key-sorted sequence: everything in it has a key at least
      that of everything after it. */
  lemma SortedPrefixDominates<T>(s: seq<T>, key: T -> int, n: nat)
    requires SortedDesc(s, key)
    requires n <= |s|
    ensures forall x, y :: x in s[..n] && y in s[n..] ==> key(x) >= key(y)
  {
    forall x, y | x in s[..n] && y in s[n..]
      ensures key(x) >= key(y)
    {
      var i :| 0 <= i < n && s[..n][i] == x;
      var j :| 0 <= j < |s| - n && s[n..][j] == y;
      assert s[i] == x && s[n + j] == y;
    }
  }

  /** A prefix of a sorted sequence is sorted. */
  lemma SortedPrefix<T>(s: seq<T>, key: T -> int, n: nat)
    requires SortedDesc(s, key)
    requires n <= |s|
    ensures SortedDesc(s[..n], key)
  {
  }
}

=== FILE: text.dfy ===
/** String helpers with ECMAScript semantics, shared by the embedding codec,
    the AI reply parsers and the profile form:
    - String.prototype.trim (WhiteSpace and LineTerminator code points),
    - String.prototype.split and Array.prototype.join with a one-character separator,
    - s.replace(/[\[\]]/g, ''), which deletes every bracket character. */
module Text {
  import Sequences

  /** The ECMAScript WhiteSpace and LineTerminator code points that trim removes. */
  const JsSpaceCodes: set<int> := {
    0x09, 0x0A, 0x0B, 0x0C, 0x0D, 0x20, 0xA0, 0x1680,
    0x2000, 0x2001, 0x2002, 0x2003, 0x2004, 0x2005, 0x2006, 0x2007, 0x2008, 0x2009, 0x200A,
    0x2028, 0x2029, 0x202F, 0x205F, 0x3000, 0xFEFF}

  predicate IsJsSpace(c: char) {
    c as int in JsSpaceCodes
  }

  /** True iff s consists of whitespace only (the empty string included). */
  predicate IsBlank(s: string) {
    forall k :: 0 <= k < |s| ==> IsJsSpace(s[k])
  }

  /** Number of occurrences of c in s. */
  function Occurrences(s: string, c: char): nat {
    multiset(s)[c]
  }

  lemma BlankHasNoOthers(b: string, c: char)
    requires IsBlank(b)
    requires !IsJsSpace(c)
    ensures Occurrences(b, c) == 0
  {
    assert c !in b;
  }

  /** Where the whitespace run starting at index i of s ends. */
  function SkipSpaces(s: string, i: nat): (k: nat)
    requires i <= |s|
    ensures i <= k <= |s|
    ensures forall m :: i <= m < k ==> IsJsSpace(s[m])
    ensures k < |s| ==> !IsJsSpace(s[k])
    decreases |s| - i
  {
    if i == |s| || !IsJsSpace(s[i]) then i else SkipSpaces(s, i + 1)
  }

  /** Where the whitespace run ending just before index j of s starts, not going below lo. */
  function SkipSpacesBack(s: string, lo: nat, j: nat): (k: nat)
    requires lo <= j <= |s|
    ensures lo <= k <= j
    ensures forall m :: k <= m < j ==> IsJsSpace(s[m])
    ensures k > lo ==> !IsJsSpace(s[k - 1])
  {
    if j == lo || !IsJsSpace(s[j - 1]) then j else SkipSpacesBack(s, lo, j - 1)
  }

  /** Cutting blank ends off a string keeps its other characters, and leaves
      nothing exactly when the string was blank. */
  lemma BlankEnds(a: string, r: string, b: string)
    requires IsBlank(a) && IsBlank(b)
    requires r == [] || !IsJsSpace(r[0])
    ensures r == [] <==> IsBlank(a + r + b)
    ensures forall c :: !IsJsSpace(c) ==> Occurrences(r, c) == Occurrences(a + r + b, c)
  {
    var s := a + r + b;
    if r != [] {
      assert s[|a|] == r[0];
    } else {
      assert s == a + b;
    }
    forall c | !IsJsSpace(c)
      ensures Occurrences(r, c) == Occurrences(s, c)
    {
      assert multiset(s) == multiset(a) + multiset(r) + multiset(b);
      BlankHasNoOthers(a, c);
      BlankHasNoOthers(b, c);
    }
  }

  /** r is a slice of s with only whitespace cut from either end. */
  ghost predicate BlankCut(s: string, r: string) {
    exists i, j :: 0 <= i <= j <= |s| && r == s[i..j] && IsBlank(s[..i]) && IsBlank(s[j..])
  }

  /** What trim promises of r: a whitespace-only cut from each end of s, with
      no whitespace left at either end of r; r is empty exactly when s is
      blank, and every other character keeps its count. */
  ghost predicate TrimmedFrom(s: string, r: string) {
    && BlankCut(s, r)
    && (r == [] || (!IsJsSpace(r[0]) && !IsJsSpace(r[|r| - 1])))
    && (r == [] <==> IsBlank(s))
    && forall c :: !IsJsSpace(c) ==> Occurrences(r, c) == Occurrences(s, c)
  }

  /** Cutting s at i and j, where only whitespace lies outside and the cut
      ends are not whitespace, keeps every other character. */
  lemma TrimCut(s: string, i: nat, j: nat)
    requires i <= j <= |s|
    requires forall m :: 0 <= m < i ==> IsJsSpace(s[m])
    requires forall m :: j <= m < |s| ==> IsJsSpace(s[m])
    requires i < |s| ==> !IsJsSpace(s[i])
    requires j > i ==> !IsJsSpace(s[j - 1])
    ensures TrimmedFrom(s, s[i..j])
  {
    var a, r, b := s[..i], s[i..j], s[j..];
    assert s == a + r + b;
    assert IsBlank(a) by {
      assert forall m :: 0 <= m < |a| ==> a[m] == s[m];
    }
    assert IsBlank(b) by {
      assert forall m :: 0 <= m < |b| ==> b[m] == s[j + m];
    }
    BlankEnds(a, r, b);
    assert r != [] ==> r[0] == s[i] && r[|r| - 1] == s[j - 1];
  }

  /** String.prototype.trim: s without its leading and trailing whitespace. */
  function Trim(s: string): (r: string)
    ensures TrimmedFrom(s, r)
  {
    var i := SkipSpaces(s, 0);
    var j := SkipSpacesBack(s, i, |s|);
    TrimCut(s, i, j);
    s[i..j]
  }

  /** Trimming keeps the count of every character other than whitespace. */
  lemma TrimKeepsCount(s: string, c: char)
    requires !IsJsSpace(c)
    ensures Occurrences(Trim(s), c) == Occurrences(s, c)
  {
  }

  /** Trimming twice is trimming once. */
  lemma TrimIdempotent(s: string)
    ensures Trim(Trim(s)) == Trim(s)
  {
    var r := Trim(s);
    if r != [] {
      assert SkipSpaces(r, 0) == 0;
      assert SkipSpacesBack(r, 0, |r|) == |r|;
      assert r[0..|r|] == r;
    }
  }

  /** Index of the first occurrence of c in s. */
  function IndexOf(s: string, c: char): (i: nat)
    requires c in s
    ensures i < |s| && s[i] == c
    ensures forall k :: 0 <= k < i ==> s[k] != c
  {
    if s[0] == c then 0 else 1 + IndexOf(s[1..], c)
  }

  lemma IndexOfAfterPrefix(a: string, c: char, b: string)
    requires c !in a
    ensures c in a + [c] + b
    ensures IndexOf(a + [c] + b, c) == |a|
  {
    var s := a + [c] + b;
    assert s[|a|] == c;
    assert forall k :: 0 <= k < |a| ==> s[k] == a[k] && a[k] != c;
  }

  /** Array.prototype.join with a one-character separator. */
  function Join(parts: seq<string>, sep: char): (r: string)
    ensures (forall k :: 0 <= k < |parts| ==> sep !in parts[k]) ==>
              Occurrences(r, sep) == (if parts == [] then 0 else |parts| - 1)
  {
    if parts == [] then []
    else if |parts| == 1 then
      assert sep !in parts[0] ==> multiset(parts[0])[sep] == 0;
      parts[0]
    else
      assert sep !in parts[0] ==> multiset(parts[0])[sep] == 0;
      parts[0] + [sep] + Join(parts[1..], sep)
  }

  /** String.prototype.split with a one-character separator: the maximal
      separator-free pieces of s, one more than there are separators. */
  function Split(s: string, sep: char): (parts: seq<string>)
    ensures |parts| == Occurrences(s, sep) + 1
    ensures forall k :: 0 <= k < |parts| ==> sep !in parts[k]
    ensures Join(parts, sep) == s
    decreases |s|
  {
    if sep !in s then
      assert multiset(s)[sep] == 0;
      [s]
    else
      var i := IndexOf(s, sep);
      var rest := Split(s[i + 1..], sep);
      CutAtFirst(s, sep, i);
      var parts := [s[..i]] + rest;
      assert parts[1..] == rest;
      parts
  }

  /** Cutting s at its first separator, index i: the piece before it holds
      none, and the rest holds one fewer. */
  lemma CutAtFirst(s: string, sep: char, i: nat)
    requires i < |s| && s[i] == sep
    requires forall k :: 0 <= k < i ==> s[k] != sep
    ensures s == s[..i] + [sep] + s[i + 1..]
    ensures sep !in s[..i]
    ensures Occurrences(s, sep) == Occurrences(s[i + 1..], sep) + 1
  {
    assert s == s[..i] + [sep] + s[i + 1..];
    assert multiset(s) == multiset(s[..i]) + multiset{sep} + multiset(s[i + 1..]);
    assert sep !in s[..i];
  }

  /** Split cuts at the first separator. */
  lemma SplitAtFirst(a: string, sep: char, tail: string)
    requires sep !in a
    ensures Split(a + [sep] + tail, sep) == [a] + Split(tail, sep)
  {
    var s := a + [sep] + tail;
    IndexOfAfterPrefix(a, sep, tail);
    assert s[..|a|] == a;
    assert s[|a| + 1..] == tail;
  }

  /** Splitting a join of separator-free pieces gives the pieces back. */
  lemma {:induction false} SplitJoin(parts: seq<string>, sep: char)
    requires parts != []
    requires forall k :: 0 <= k < |parts| ==> sep !in parts[k]
    ensures Split(Join(parts, sep), sep) == parts
  {
    if |parts| > 1 {
      var rest := parts[1..];
      SplitJoin(rest, sep);
      SplitAtFirst(parts[0], sep, Join(rest, sep));
      assert parts == [parts[0]] + rest;
    }
  }

  /** s.filter(keep): the elements keep accepts, in their original order. */
  function Keep(s: seq<string>, keep: string -> bool): (r: seq<string>)
    ensures |r| <= |s|
    ensures forall x :: x in r <==> x in s && keep(x)
  {
    if s == [] then []
    else
      var rest := Keep(s[1..], keep);
      assert forall x :: x in s <==> x == s[0] || x in s[1..];
      if keep(s[0]) then [s[0]] + rest else rest
  }

  /** One step of the filter: the head is kept or dropped, then the tail is filtered. */
  lemma KeepStep(s: seq<string>, keep: string -> bool)
    requires s != []
    ensures Keep(s, keep) == if keep(s[0]) then [s[0]] + Keep(s[1..], keep) else Keep(s[1..], keep)
  {
  }

  /** Filtering distributes over concatenation, so the kept elements keep their order. */
  lemma {:induction false} KeepAppend(a: seq<string>, b: seq<string>, keep: string -> bool)
    ensures Keep(a + b, keep) == Keep(a, keep) + Keep(b, keep)
  {
    if a != [] {
      assert (a + b)[0] == a[0];
      assert (a + b)[1..] == a[1..] + b;
      KeepAppend(a[1..], b, keep);
    } else {
      assert a + b == b;
    }
  }

  /** A filter that accepts nothing returns the empty list. */
  lemma {:induction false} KeepNothing(s: seq<string>, keep: string -> bool)
    requires forall x :: x in s ==> !keep(x)
    ensures Keep(s, keep) == []
  {
    if s != [] {
      KeepNothing(s[1..], keep);
    }
  }

  /** A filter that rejects nothing returns its input. */
  lemma {:induction false} KeepEverything(s: seq<string>, keep: string -> bool)
    requires forall x :: x in s ==> keep(x)
    ensures Keep(s, keep) == s
  {
    if s != [] {
      KeepEverything(s[1..], keep);
    }
  }

  /** A filter that rejects exactly one element between two kept runs cuts out just that element. */
  lemma {:induction false} KeepDropsOne(pre: seq<string>, x: string, post: seq<string>, keep: string -> bool)
    requires forall y :: y in pre ==> keep(y)
    requires forall y :: y in post ==> keep(y)
    requires !keep(x)
    ensures Keep(pre + [x] + post, keep) == pre + post
  {
    var s := pre + [x] + post;
    if pre == [] {
      assert s == [x] + post && s[1..] == post;
      KeepEverything(post, keep);
    } else {
      assert s[0] == pre[0] && s[1..] == pre[1..] + [x] + post;
      KeepDropsOne(pre[1..], x, post, keep);
      assert pre + post == [pre[0]] + (pre[1..] + post);
    }
  }

  /** Filtering a list without duplicates gives a list without duplicates. */
  lemma {:induction false} KeepUnique(s: seq<string>, keep: string -> bool)
    requires Sequences.Unique(s)
    ensures Sequences.Unique(Keep(s, keep))
  {
    if s != [] {
      Sequences.UniqueHead(s);
      KeepUnique(s[1..], keep);
      assert forall k :: 0 <= k < |s| - 1 ==> s[1..][k] == s[k + 1];
      if keep(s[0]) {
        Sequences.ConsKeepsUnique(s[0], Keep(s[1..], keep));
      }
    }
  }

  predicate IsBracket(c: char) {
    c == '[' || c == ']'
  }

  predicate NoBrackets(s: string) {
    forall k :: 0 <= k < |s| ==> !IsBracket(s[k])
  }

  /** s.replace(/[\[\]]/g, ''): every '[' and ']' deleted, everything else kept in order. */
  function RemoveBrackets(s: string): (r: string)
    ensures |r| <= |s|
    ensures NoBrackets(r)
    ensures NoBrackets(s) ==> r == s
  {
    if s == [] then []
    else
      var rest := RemoveBrackets(s[1..]);
      assert NoBrackets(s) ==> NoBrackets(s[1..]) by {
        assert forall k :: 0 <= k < |s| - 1 ==> s[1..][k] == s[k + 1];
      }
      (if IsBracket(s[0]) then [] else [s[0]]) + rest
  }

  /** Deleting brackets leaves the count of every other character unchanged. */
  lemma {:induction false} RemoveBracketsCounts(s: string, c: char)
    requires !IsBracket(c)
    ensures Occurrences(RemoveBrackets(s), c) == Occurrences(s, c)
  {
    if s != [] {
      RemoveBracketsCounts(s[1..], c);
      assert s == [s[0]] + s[1..];
    }
  }

  lemma {:induction false} RemoveBracketsAppend(a: string, b: string)
    ensures RemoveBrackets(a + b) == RemoveBrackets(a) + RemoveBrackets(b)
  {
    if a != [] {
      RemoveBracketsAppend(a[1..], b);
      var head := if IsBracket(a[0]) then [] else [a[0]];
      assert (a + b)[0] == a[0];
      assert (a + b)[1..] == a[1..] + b;
      assert RemoveBrackets(a + b) == head + RemoveBrackets(a[1..] + b);
      assert RemoveBrackets(a) == head + RemoveBrackets(a[1..]);
    } else {
      assert a + b == b;
    }
  }

  /** Removing the brackets of "[" + t + "]" recovers a bracket-free t. */
  lemma Unbracket(t: string)
    requires NoBrackets(t)
    ensures RemoveBrackets("[" + t + "]") == t
  {
    RemoveBracketsAppend("[" + t, "]");
    RemoveBracketsAppend("[", t);
  }
}
